=== FILE: README.md ===
# CRMS booking core, modelled in Dafny

CRMS is a campus resource management system. Users (administrators, staff,
students) book rooms, labs and event halls in one-hour slots. This project
models its core on both sides of the HTTP boundary:

- **Backend** (Spring services over JPA repositories). The database is one
  `Store.Database` object. It holds one map per table, keyed by the generated
  id, and one identity counter per table. The services are methods that
  change it:
  - `BookingService`: creation with the slot-conflict check and the role-based
    initial status, status updates, lookups and the availability query;
  - `ResourceService` and `UserService`: create with a forced status, update,
    delete, list;
  - `BookingRepository`: the derived queries, as predicates and map filters.
- **Frontend** (React screens). Each screen is a class whose fields are the
  component's state, and whose methods are its handlers:
  - the bookings screen (`BookingsPage`): time-slot catalog, calendar
    navigation, date strings, the availability check, the booking form,
    status tabs and row actions;
  - the dashboard (`DashboardPage`);
  - user management (`UserManagementPage`) and resources (`ResourcesPage`):
    search and type/role filters, counters, add-forms;
  - the older create/edit resource form (`ResourceEditor`);
  - the toast list of the UI kit (`Toasts`).

  Remote calls, timers and `window.confirm` are not executed. Their outcomes
  are parameters of the handlers (`Fetch`, `createSucceeds`, `confirmed`…).
  Handlers return the call they would make and the toast they would show.
- **Support modules.** JavaScript's `filter`, `reverse`, `slice(-k)`,
  `toLowerCase`, `includes`, `String(n)`, `padStart(2, '0')` and `parseInt`
  are modelled in `Seqs` and `Text`.

The main proved facts:
- The conflict query ignores rejected bookings. A successful creation makes
  the availability query report the slot as taken. For requests served one at a
  time, creation keeps "one live booking per slot". A status update can break that rule, and a concrete
  witness shows how. The updates the screen offers cannot break it, as long
  as the row the screen shows is still pending on the server.
- The screens' filters are order-preserving subsequences, with exact
  membership conditions. Each set of tab counters sums to the total.
- `parseInt(String(n)) == n`, so loading a resource into the edit form and
  saving it unchanged writes back exactly its own fields.
- The date string a calendar click builds reads back as its year, month and
  day.
- Adding a toast and removing the returned id restores the list.

Where the code and the written design of the system differ, the model follows
the code:
- A new booking is saved as APPROVED when its user is an administrator; it is
  not always PENDING.
- The availability endpoint returns a map (`available`, `resourceId`, `date`,
  `timeSlot`), not a boolean. That mismatch is the finding below.
- The server enforces no "only from PENDING" rule on status changes, and has
  no invalid-transition error. Only the screen hides the buttons.
- Resource capacity is not checked to be positive.
- `frontend/src/components/Resources.js` imports `resourceApi`, which
  `frontend/src/api/api.js` does not export. Its handlers are modelled for
  both call outcomes.
- `frontend/src/api/api.js` calls `DELETE /users/{id}` and
  `DELETE /bookings/{id}`, but only the resource controller maps a DELETE
  route. As written, the delete handlers of the bookings and user-management
  screens can only reach their error toasts; the model covers both outcomes.

## Model

| member | source | states |
|---|---|---|
| Store.Database.constructor | src/main/java/com/crms/entity/Resource.java:16-17 | stands for the empty JPA store with IDENTITY keys: the three tables start empty with counters at 1, and the table invariant holds |
| Store.Database.InsertUser | src/main/java/com/crms/service/UserService.java:19 | `save` of a new user gives it the next key, which no row had; that table's counter rises by one; other tables and counters untouched |
| Store.Database.InsertResource | src/main/java/com/crms/service/ResourceService.java:20 | `save` of a new resource gives it the next key, which no row had; that table's counter rises by one; other tables and counters untouched |
| Store.Database.InsertBooking | src/main/java/com/crms/service/BookingService.java:53 | `save` of a new booking gives it the next key, which no row had; that table's counter rises by one; other tables and counters untouched |
| BookingRepository.FindByUserId | src/main/java/com/crms/repository/BookingRepository.java:17 | a row is returned iff its user is the given one, and returned unchanged |
| BookingRepository.FindByResourceId | src/main/java/com/crms/repository/BookingRepository.java:18 | a row is returned iff its resource is the given one, and returned unchanged |
| BookingRepository.ExistsOnlyLooksAtResource | src/main/java/com/crms/repository/BookingRepository.java:10-18 | the conflict query gives the same answer on the whole table and on the resource's own bookings |
| BookingRepository.ExcludedStatusNeverMatches | src/main/java/com/crms/repository/BookingRepository.java:10-15 | adding a booking with the excluded status never changes the query's answer |
| BookingRepository.StoredBookingMatches | src/main/java/com/crms/repository/BookingRepository.java:10-15 | a stored booking whose status is not the excluded one makes the query true for its own slot |
| BookingService.InitialStatus | src/main/java/com/crms/service/BookingService.java:46-51 | the new status is APPROVED exactly for administrators, PENDING otherwise, never REJECTED |
| BookingService.SlotTakenScenario | src/main/java/com/crms/service/BookingService.java:30-41 | an approved booking blocks its own slot only, not another slot or resource; once rejected it blocks nothing |
| BookingService.InsertOnFreeSlotKeepsSlotsUnique | src/main/java/com/crms/service/BookingService.java:30-53 | saving on a slot the conflict query reports free keeps at most one non-rejected booking per slot |
| BookingService.SavedBookingTakesSlot | src/main/java/com/crms/service/BookingService.java:31-37 | after a non-rejected booking is saved, the conflict query reports its slot taken |
| BookingService.WithStatus | src/main/java/com/crms/service/BookingService.java:67-69 | only the status of the one row changes; the keys and every other row stay |
| BookingService.WithStatusKeepsSlotsUnique | src/main/java/com/crms/service/BookingService.java:62-70 | a status update keeps slots unique when it rejects, or when the booking was not rejected before |
| BookingService.WithStatusCanBreakSlotsUnique | src/main/java/com/crms/service/BookingService.java:62-70 | there is a table with unique slots that a move from REJECTED back to PENDING makes non-unique |
| BookingService.CreateBooking | src/main/java/com/crms/service/BookingService.java:22-54 | the three errors in order ("User not found", "Resource not found", "Resource already booked for this slot") leave the database unchanged; it succeeds exactly when the user and resource exist and no non-rejected booking holds the slot, and then the booking has the request's date and slot, the role's status and a fresh key, and only the booking counter advances; slot uniqueness is preserved |
| BookingService.GetAllBookings | src/main/java/com/crms/service/BookingService.java:57-59 | returns the whole booking table |
| BookingService.UpdateBookingStatus | src/main/java/com/crms/service/BookingService.java:62-70 | "Booking not found" with no change, else the row's status is overwritten whatever it was; the other tables and all counters stay |
| BookingService.GetBookingsByUser | src/main/java/com/crms/service/BookingService.java:73-75 | returns the user's bookings |
| BookingService.GetBookingsByResource | src/main/java/com/crms/service/BookingService.java:78-80 | returns the resource's bookings |
| BookingService.CheckAvailability | src/main/java/com/crms/service/BookingService.java:83-101 | "Resource not found", else `available` is the negated conflict query and the other three entries echo the arguments |
| BookingService.CreateThenCheck | src/main/java/com/crms/service/BookingService.java:22-101 | the create succeeds when user and resource exist and the slot is free, and after a successful create the availability query for the same slot reports it unavailable |
| ResourceService.CreateResource | src/main/java/com/crms/service/ResourceService.java:18-21 | the saved resource is AVAILABLE whatever status it carried, keeps name, type and capacity, and gets a fresh key; only the resource counter advances |
| ResourceService.GetAllResources | src/main/java/com/crms/service/ResourceService.java:24-26 | returns the whole resource table |
| ResourceService.UpdateResource | src/main/java/com/crms/service/ResourceService.java:29-40 | ResourceNotFoundException with no change, else the row takes the four fields of the update and keeps its key; no counter moves |
| ResourceService.DeleteResource | src/main/java/com/crms/service/ResourceService.java:43-49 | ResourceNotFoundException with no change, else exactly that row is removed; no counter moves |
| UserService.CreateUser | src/main/java/com/crms/service/UserService.java:16-20 | the saved user is ACTIVE with the clock reading as creation time, keeps the other fields, and gets a fresh key; only the user counter advances |
| UserService.GetAll | src/main/java/com/crms/service/UserService.java:22-24 | returns the whole user table |
| Api.DataOrEmpty | frontend/src/pages/Dashboard.jsx:23-25 | a failed fetch reads as the empty list, a successful one as its data |
| Toasts.WithoutSpec | frontend/src/components/ui.jsx:26-28 | removal drops every toast with the id, keeps every other one, and keeps their order |
| Toasts.WithoutAbsent | frontend/src/components/ui.jsx:26-28 | removing an id no toast carries changes nothing |
| Toasts.WithoutIdempotent | frontend/src/components/ui.jsx:26-28 | removing the same id twice is removing it once |
| Toasts.AddThenRemove | frontend/src/components/ui.jsx:16-27 | appending a toast with a fresh id and removing that id gives back the old list |
| Toasts.ToastCenter.constructor | frontend/src/components/ui.jsx:9-13 | the counter starts at 0, no toasts, no timers, no registered hook |
| Toasts.ToastCenter.UseToast | frontend/src/components/ui.jsx:12-33 | rendering the hook registers it and changes nothing else |
| Toasts.ToastCenter.AddToast | frontend/src/components/ui.jsx:15-24 | defaults `info` and 4000; the id exceeds every id issued before; exactly one toast is appended; a timer is scheduled iff the duration is positive |
| Toasts.ToastCenter.RemoveToast | frontend/src/components/ui.jsx:26-28 | the list becomes the old list without that id; the counter and timers stay |
| Toasts.ToastCenter.TimerFires | frontend/src/components/ui.jsx:19-21 | the expired timer is gone and its toast removed |
| Toasts.ToastCenter.ShowToast | frontend/src/components/ui.jsx:35-37 | before a hook registered it changes nothing; afterwards it adds exactly one toast under the next id, with a timer iff the duration is positive; registration stays as it was |
| Toasts.AddThenRemoveRestores | frontend/src/components/ui.jsx:15-28 | removing the id `addToast` returned restores the toast list |
| BookingsPage.TwoDigitHourSpec | frontend/src/pages/Bookings.jsx:15-19 | the two-digit hour is `padStart(2, '0')` of the hour and reads back as the hour |
| BookingsPage.SlotLabelInjective | frontend/src/pages/Bookings.jsx:15-19 | different start hours give different slot labels |
| BookingsPage.SlotLabelAt | frontend/src/pages/Bookings.jsx:15-19 | entry i of the catalog is the one-hour slot starting at 8 + i |
| BookingsPage.TimeSlotsCatalog | frontend/src/pages/Bookings.jsx:15-19 | ten consecutive one-hour slots from 08:00 to 18:00, pairwise distinct |
| BookingsPage.MonthIndexInjective | frontend/src/pages/Bookings.jsx:33-34 | a calendar view is determined by its month count |
| BookingsPage.PrevMonth | frontend/src/pages/Bookings.jsx:392-394 | the previous month is a valid view exactly one month earlier (January goes to December of the year before) |
| BookingsPage.NextMonth | frontend/src/pages/Bookings.jsx:399-401 | the next month is a valid view exactly one month later (December goes to January of the year after) |
| BookingsPage.PrevNextInverse | frontend/src/pages/Bookings.jsx:392-401 | the two arrows undo each other |
| BookingsPage.FourDigitYear | frontend/src/pages/Bookings.jsx:61 | a year from 1000 to 9999 prints as four digits |
| BookingsPage.DateStringFields | frontend/src/pages/Bookings.jsx:58-63 | the date string is `yyyy-MM-dd`: ten characters, dashes at 4 and 7, fields reading back as year, month counted from 1, and day |
| BookingsPage.AsWrittenMissesTakenSlot | frontend/src/pages/Bookings.jsx:70-73 | for a slot the server reports taken, the flag as written stays down |
| BookingsPage.CorrectedFlagsTakenSlot | frontend/src/pages/Bookings.jsx:70-73 | the corrected flag is raised iff the server's conflict query holds |
| BookingsPage.FilteredBookings | frontend/src/pages/Bookings.jsx:135-138 | an order-preserving subsequence holding exactly the bookings of the chosen status; the whole list for "ALL" |
| BookingsPage.StatusCountsPartition | frontend/src/pages/Bookings.jsx:211-212 | the Pending, Approved and Rejected counts add up to the All count |
| BookingsPage.TabCountMatchesRows | frontend/src/pages/Bookings.jsx:135-138 | a tab's count is the number of rows the tab shows |
| BookingsPage.ActionsFor | frontend/src/pages/Bookings.jsx:291-297 | approve and reject are offered iff the booking is pending; delete always |
| BookingsPage.OfferedStatusChangeKeepsSlotsUnique | frontend/src/pages/Bookings.jsx:291-294 | any status change of a booking still pending in the server's table keeps slots unique |
| BookingsPage.StatusMessageOf | frontend/src/pages/Bookings.jsx:109 | the toast is "Booking " and the status name in lower case |
| BookingsPage.StatusMessageApproved | frontend/src/pages/Bookings.jsx:109 | approving announces "Booking approved" |
| BookingsPage.StatusMessageRejected | frontend/src/pages/Bookings.jsx:109 | rejecting announces "Booking rejected" |
| BookingsPage.StatusMessagePending | frontend/src/pages/Bookings.jsx:109 | a change to pending announces "Booking pending" |
| BookingsPage.BookingsScreen.constructor | frontend/src/pages/Bookings.jsx:22-35 | empty lists, loading, no selection, no conflict, the current month, the "ALL" tab |
| BookingsPage.BookingsScreen.LoadAll | frontend/src/pages/Bookings.jsx:39-52 | each list becomes its fetch's data, or empty when it failed; loading ends |
| BookingsPage.BookingsScreen.HandleDateSelect | frontend/src/pages/Bookings.jsx:58-63 | the selected date is the `yyyy-MM-dd` string of the shown month and the day; the conflict flag is cleared |
| BookingsPage.BookingsScreen.HandleSlotSelect | frontend/src/pages/Bookings.jsx:65-76 | as written: the check runs iff a resource and a date are selected, and the flag is set only by a falsy reply |
| BookingsPage.BookingsScreen.HandleSlotSelectCorrected | frontend/src/pages/Bookings.jsx:65-76 | corrected: the flag is set iff the reply says `available` is false |
| BookingsPage.BookingsScreen.HandleBooking | frontend/src/pages/Bookings.jsx:78-104 | a warning and no call when a field is empty; an error and no call on a conflict; otherwise the create call with the four fields, then the success or error toast |
| BookingsPage.BookingsScreen.HandleStatus | frontend/src/pages/Bookings.jsx:106-114 | the update call with the id and status, then "Booking <status>" or "Error updating booking" |
| BookingsPage.BookingsScreen.HandleDelete | frontend/src/pages/Bookings.jsx:116-125 | no call unless confirmed; then "Booking deleted" or "Error deleting booking" |
| BookingsPage.BookingsScreen.BookingSettled | frontend/src/pages/Bookings.jsx:92-100 | the form closes and all four selections are cleared |
| BookingsPage.BookingsScreen.HandlePrevMonth | frontend/src/pages/Bookings.jsx:392-394 | the view becomes the previous month |
| BookingsPage.BookingsScreen.HandleNextMonth | frontend/src/pages/Bookings.jsx:399-401 | the view becomes the next month |
| BookingsPage.BookingsScreen.SetStatusFilter | frontend/src/pages/Bookings.jsx:202-205 | the clicked tab becomes the filter |
| BookingsPage.TakenSlotStillSubmitted | frontend/src/pages/Bookings.jsx:65-104 | with a taken slot and the form filled, the screen as written returns the create call with the user, resource and date as filled before the call and the chosen slot; the corrected one returns no call; the three selections stay |
| DashboardPage.PendingCount | frontend/src/pages/Dashboard.jsx:31 | pending never exceeds the number of bookings |
| DashboardPage.ComputeStats | frontend/src/pages/Dashboard.jsx:27-32 | three counters are the list lengths; pending is the number of PENDING bookings and at most the bookings counter |
| DashboardPage.PendingCountAppend | frontend/src/pages/Dashboard.jsx:31 | one more booking raises pending by one iff it is pending |
| DashboardPage.AllPendingIffCountsEqual | frontend/src/pages/Dashboard.jsx:28-31 | pending equals bookings iff every booking is pending |
| DashboardPage.FailedFetchCountsZero | frontend/src/pages/Dashboard.jsx:22-31 | a failed fetch shows 0 on its counters |
| DashboardPage.RecentBookings | frontend/src/pages/Dashboard.jsx:33 | min(5, n) bookings, entry i being booking n-1-i: the last five, newest first |
| DashboardPage.StatusColor | frontend/src/pages/Dashboard.jsx:40-46 | APPROVED is emerald, REJECTED red, anything else amber |
| DashboardPage.Dashboard.constructor | frontend/src/pages/Dashboard.jsx:12-14 | zero counters, no recent bookings, loading |
| DashboardPage.Dashboard.LoadDashboard | frontend/src/pages/Dashboard.jsx:20-38 | the counters and recent list are computed from the fetched lists, failures read as empty; loading ends |
| UserManagementPage.FilteredUsers | frontend/src/pages/UserManagement.jsx:77-82 | an order-preserving subsequence; a user is kept iff the lower-cased name or email includes the lower-cased search and the role filter admits it |
| UserManagementPage.EmptySearchKeepsNamedUsers | frontend/src/pages/UserManagement.jsx:77-82 | with empty search and all roles, exactly the users with a name or email are listed, and all of them when every user has one |
| UserManagementPage.RoleCountsPartition | frontend/src/pages/UserManagement.jsx:142-145 | the Admins, Staff and Students counters add up to the Total counter |
| UserManagementPage.EmptySearchMatchesContact | frontend/src/pages/UserManagement.jsx:77-82 | an empty search matches a user exactly when the user has a name or an email |
| UserManagementPage.RoleCountCountsUnlisted | frontend/src/pages/UserManagement.jsx:77-82 | for every user list, a role counter is the number of users the role button lists with an empty search plus the users of that role with neither name nor email, whom the counter includes and the list never shows |
| UserManagementPage.RoleCountMatchesRoleTab | frontend/src/pages/UserManagement.jsx:77-82 | when every user has a name or an email, a role counter is the number of users the role button lists with an empty search |
| UserManagementPage.UserManagementScreen.constructor | frontend/src/pages/UserManagement.jsx:29-34 | no users, loading, no search, all roles, the empty form with role STAFF |
| UserManagementPage.UserManagementScreen.FetchUsers | frontend/src/pages/UserManagement.jsx:38-47 | success replaces the list; failure keeps it and toasts "Failed to fetch users" |
| UserManagementPage.UserManagementScreen.HandleAdd | frontend/src/pages/UserManagement.jsx:49-64 | no call and a warning when name or email is empty; otherwise the form is sent; success resets it to the empty STAFF form and closes it, failure keeps it |
| UserManagementPage.UserManagementScreen.HandleDelete | frontend/src/pages/UserManagement.jsx:66-75 | no call unless confirmed; then "User deleted" or "Error deleting user" |
| ResourcesPage.FilteredResources | frontend/src/pages/Resources.jsx:73-77 | an order-preserving subsequence; a resource is kept iff its lower-cased name includes the lower-cased search and the type filter admits it |
| ResourcesPage.EmptySearchShowsAll | frontend/src/pages/Resources.jsx:73-77 | empty search and all types show the whole list |
| ResourcesPage.LongerSearchNarrows | frontend/src/pages/Resources.jsx:73-77 | typing more into the search box never brings a resource back |
| ResourcesPage.AvailableCount | frontend/src/pages/Resources.jsx:158 | Available is at most Total |
| ResourcesPage.TypeCountsPartition | frontend/src/pages/Resources.jsx:157-161 | Classrooms, Labs and Event Halls add up to Total |
| ResourcesPage.TypeCountMatchesTypeTab | frontend/src/pages/Resources.jsx:73-77 | a type counter is the number of cards the type button shows with an empty search |
| ResourcesPage.PayloadOf | frontend/src/pages/Resources.jsx:52 | the create body keeps name and type and carries the integer the capacity text spells |
| ResourcesPage.ResourcesScreen.constructor | frontend/src/pages/Resources.jsx:23-29 | no resources, loading, no search, all types, the empty form |
| ResourcesPage.ResourcesScreen.FetchResources | frontend/src/pages/Resources.jsx:34-43 | success replaces the list; failure keeps it and toasts "Failed to fetch resources" |
| ResourcesPage.ResourcesScreen.HandleAdd | frontend/src/pages/Resources.jsx:45-60 | no call and a warning when name or capacity is empty; otherwise the parsed body is sent; success resets the form to name '', CLASSROOM, capacity '' |
| ResourcesPage.ResourcesScreen.HandleDelete | frontend/src/pages/Resources.jsx:62-71 | no call unless confirmed; then "Resource deleted" or "Error deleting resource" |
| ResourceEditor.PayloadOf | frontend/src/components/Resources.js:41-44 | the body keeps name, type and status and carries the integer the capacity text spells |
| ResourceEditor.FormOf | frontend/src/components/Resources.js:67-75 | the form holds the resource's name, type and status, and a capacity text that parses back to its capacity |
| ResourceEditor.UntouchedEditWritesBack | frontend/src/components/Resources.js:41-75 | saving the form of a loaded resource unchanged sends exactly the resource's own fields |
| ResourceEditor.ResourceEditorScreen.constructor | frontend/src/components/Resources.js:5-14 | the default form (CLASSROOM, AVAILABLE, empty name and capacity), create mode, no error |
| ResourceEditor.ResourceEditorScreen.FetchResources | frontend/src/components/Resources.js:20-31 | success replaces the list; failure keeps it and sets "Failed to fetch resources" |
| ResourceEditor.ResourceEditorScreen.HandleInputChange | frontend/src/components/Resources.js:33-36 | the named field takes the new value, the others stay |
| ResourceEditor.ResourceEditorScreen.HandleEdit | frontend/src/components/Resources.js:67-75 | edit mode for the row; the form is loaded from it, or, when its capacity is null, the call throws after setting the id |
| ResourceEditor.ResourceEditorScreen.HandleSubmit | frontend/src/components/Resources.js:38-65 | update of the edited row when `editingId` is truthy, else create, with the parsed body; success returns to create mode and the default form, failure keeps both and sets "Failed to save resource" |
| ResourceEditor.ResourceEditorScreen.HandleDelete | frontend/src/components/Resources.js:77-87 | no call unless confirmed; a failure sets "Failed to delete resource" |
| ResourceEditor.ResourceEditorScreen.HandleCancel | frontend/src/components/Resources.js:89-97 | back to create mode with the default form |
| ResourceEditor.EditThenSave | frontend/src/components/Resources.js:38-75 | edit then save without changes sends an update of that row with its own fields and returns to create mode |
| Text.ParseIntOfIntToString | frontend/src/components/Resources.js:43 | `parseInt` reads back what `String(n)` wrote, for every integer of the model; in JavaScript this holds for integers up to 2^53 in magnitude, which covers every Java `Integer` capacity |
| Text.TwoDigits | frontend/src/pages/Bookings.jsx:59-60 | a number below 100 pads to two digits that read back as the number |
| Text.IncludesOccurs | frontend/src/pages/UserManagement.jsx:78-79 | `includes` holds iff the needle occurs at some position |
| Seqs.FilterIsSubsequence | frontend/src/pages/Bookings.jsx:135 | `filter` keeps an order-preserving subsequence |
| Seqs.Reverse | frontend/src/pages/Dashboard.jsx:33 | `reverse` keeps the length and puts element i at n-1-i |
| Seqs.TakeLast | frontend/src/pages/Dashboard.jsx:33 | `slice(-k)` for k > 0 keeps the last min(k, n) elements in order |

## Left out

- Remote calls, JSON and HTTP status codes: each handler receives the outcome of its call as a parameter (`Fetch`, `createSucceeds`, `succeeds`, `deleteSucceeds`).
- Controllers, `GlobalExceptionHandler`, the login screen, the sidebar and routing are not part of this model. Neither are the older duplicates `components/Bookings.*`, `components/Users.*` and `components/Resources.jsx`.
- Server concurrency: each service call runs as one atomic step. The source's `createBooking` checks the slot and then saves, with no transaction, lock or unique constraint, so two concurrent requests for the same free slot can both pass the check and both be saved; `BookingService.CreateBooking` and `BookingService.InsertOnFreeSlotKeepsSlotsUnique` promise slot uniqueness only for requests served one at a time.
- Asynchrony: a handler's `await`s run to completion in one step. `fetchUsers()`/`fetchResources()`/`loadAll()` after a successful action are separate calls of the fetch methods. The 1.8 s timer after a booking is the explicit step `BookingSettled`.
- Toast timers are the explicit step `TimerFires`, not time. The `addToast?.` calls are modelled as the returned `Notice`; the screens are assumed to receive `addToast`.
- `window.confirm` is the `confirmed` parameter. `new Date()` for the current month and `LocalDateTime.now()` are parameters of the constructors and of `UserService.CreateUser`.
- The calendar grid (`daysInMonth`, `firstDayOfMonth`, past-day greying) and every rendering detail (icons, badges, animations, chart) are not modelled.
- Row order of the repository results: JPA returns lists, the model returns maps keyed by id.
- `BookingService.CheckAvailability`: the `date` entry stays a `LocalDate` instead of `date.toString()`.
- The request body's own `id` and `status` are ignored on create (JPA `save` of a detached entity with an id would merge).
- Foreign-key failures when deleting a resource that bookings reference are not modelled: `ResourceService.DeleteResource` always removes the row.
- A user whose role is null (the service would throw a `NullPointerException` on `getRole().name()`) cannot be expressed: `Role` is not optional.
- A resource whose name is null (the resources screen's filter would throw) cannot be expressed: `Resource.name` is a string.
- A resource whose type is null (the Java field may be null, and `updateResource` copies it) cannot be expressed: `Resource.resourceType` is not optional. With such rows the type counters would add up to less than Total, so `TypeCountsPartition` would hold only as `<=`.
- Stale screens: the bookings screen's list is a snapshot. `OfferedStatusChangeKeepsSlotsUnique` assumes the row is still pending in the server's table; a row another client has since rejected still offers approve, and approving it can break slot uniqueness (see `WithStatusCanBreakSlotsUnique`).
- Numbers: JavaScript numbers and the Java `Integer` capacity are unbounded integers here. `String(n)` for magnitudes of 1e21 and above (exponent notation) and `parseInt` of integers past 2^53 (rounding to a double) are not modelled; so `Text.IntToString` and `Text.ParseIntOfIntToString` match JavaScript only below those bounds.
- Text: `toLowerCase` is ASCII only. `parseInt` takes no leading whitespace and no radix prefixes.
- ResourceEditor.ResourceEditorScreen.HandleEdit: the thrown `TypeError` is the `crashed` result; React's error reporting is not modelled.

## Findings

| source | as written | input that shows it | evidently intended | confidence | as-written member | corrected member |
|---|---|---|---|---|---|---|
| frontend/src/pages/Bookings.jsx:71 | `if (!res.data) setConflict(true)` | the resource, date and slot of a PENDING booking: the server answers `{available: false, …}`, an object, so `!res.data` is false | `if (!res.data.available) setConflict(true)`, so that `handleBooking` refuses the taken slot before calling the server | high (not executed) | BookingsPage.BookingsScreen.HandleSlotSelect (with BookingsPage.AsWrittenMissesTakenSlot) | BookingsPage.BookingsScreen.HandleSlotSelectCorrected (with BookingsPage.CorrectedFlagsTakenSlot) |

=== FILE: api.dfy ===
/**
 * The outcome of a remote call as the screens see it. The HTTP client
 * itself is not modelled: each screen receives the outcome as a parameter.
 */
module Api {
  /** A list fetch: the response data, or a failure. */
  datatype Fetch<T> = Fetched(data: seq<T>) | FetchFailed

  /** `api().catch(() => ({ data: [] }))`: a failed fetch reads as an empty list. */
  function DataOrEmpty<T>(f: Fetch<T>): (r: seq<T>)
    ensures f.FetchFailed? ==> r == []
    ensures f.Fetched? ==> r == f.data
  {
    match f
    case Fetched(data) => data
    case FetchFailed => []
  }
}

=== FILE: booking_repository.dfy ===
/**
 * The derived queries of the booking repository, as predicates and filters
 * over the booking table (a map from key to row). Being queries, they take
 * the table as a value and cannot change it.
 */
module BookingRepository {
  import opened Entities

  type BookingTable = map<int, Booking>

  /** Two bookings are for the same resource, date and time slot. */
  predicate SameSlot(a: Booking, b: Booking)
  {
    a.resourceId == b.resourceId && a.bookingDate == b.bookingDate && a.timeSlot == b.timeSlot
  }

  /** Row `id` is a booking of `resourceId` on `date` at `timeSlot` whose status is not `status`. */
  predicate MatchesStatusNot(bookings: BookingTable, id: int, resourceId: int, date: LocalDate, timeSlot: string, status: BookingStatus)
  {
    id in bookings
    && bookings[id].resourceId == resourceId
    && bookings[id].bookingDate == date
    && bookings[id].timeSlot == timeSlot
    && bookings[id].status != status
  }

  /** `existsByResourceAndBookingDateAndTimeSlotAndStatusNot`. */
  predicate ExistsByResourceAndBookingDateAndTimeSlotAndStatusNot(
    bookings: BookingTable, resourceId: int, date: LocalDate, timeSlot: string, status: BookingStatus)
  {
    exists id :: id in bookings && MatchesStatusNot(bookings, id, resourceId, date, timeSlot, status)
  }

  /** `findByUserId`: the rows whose user is `userId`, unchanged. */
  function FindByUserId(bookings: BookingTable, userId: int): (r: BookingTable)
    ensures forall id :: id in r <==> id in bookings && bookings[id].userId == userId
    ensures forall id :: id in r ==> r[id] == bookings[id]
  {
    map id | id in bookings && bookings[id].userId == userId :: bookings[id]
  }

  /** `findByResourceId`: the rows whose resource is `resourceId`, unchanged. */
  function FindByResourceId(bookings: BookingTable, resourceId: int): (r: BookingTable)
    ensures forall id :: id in r <==> id in bookings && bookings[id].resourceId == resourceId
    ensures forall id :: id in r ==> r[id] == bookings[id]
  {
    map id | id in bookings && bookings[id].resourceId == resourceId :: bookings[id]
  }

  /** The conflict query looks only at one resource's bookings. */
  lemma ExistsOnlyLooksAtResource(bookings: BookingTable, resourceId: int, date: LocalDate, timeSlot: string, status: BookingStatus)
    ensures ExistsByResourceAndBookingDateAndTimeSlotAndStatusNot(bookings, resourceId, date, timeSlot, status)
        <==> ExistsByResourceAndBookingDateAndTimeSlotAndStatusNot(FindByResourceId(bookings, resourceId), resourceId, date, timeSlot, status)
  {
    var sub := FindByResourceId(bookings, resourceId);
    if ExistsByResourceAndBookingDateAndTimeSlotAndStatusNot(bookings, resourceId, date, timeSlot, status) {
      var id :| id in bookings && MatchesStatusNot(bookings, id, resourceId, date, timeSlot, status);
      assert MatchesStatusNot(sub, id, resourceId, date, timeSlot, status);
    }
    if ExistsByResourceAndBookingDateAndTimeSlotAndStatusNot(sub, resourceId, date, timeSlot, status) {
      var id :| id in sub && MatchesStatusNot(sub, id, resourceId, date, timeSlot, status);
      assert MatchesStatusNot(bookings, id, resourceId, date, timeSlot, status);
    }
  }

  /** A booking whose status is the excluded one never makes the query true. */
  lemma {:induction false} ExcludedStatusNeverMatches(bookings: BookingTable, b: Booking, status: BookingStatus)
    requires b.id !in bookings && b.status == status
    ensures ExistsByResourceAndBookingDateAndTimeSlotAndStatusNot(bookings[b.id := b], b.resourceId, b.bookingDate, b.timeSlot, status)
        <==> ExistsByResourceAndBookingDateAndTimeSlotAndStatusNot(bookings, b.resourceId, b.bookingDate, b.timeSlot, status)
  {
    var t := bookings[b.id := b];
    if ExistsByResourceAndBookingDateAndTimeSlotAndStatusNot(t, b.resourceId, b.bookingDate, b.timeSlot, status) {
      var id :| id in t && MatchesStatusNot(t, id, b.resourceId, b.bookingDate, b.timeSlot, status);
      assert id != b.id;
      assert MatchesStatusNot(bookings, id, b.resourceId, b.bookingDate, b.timeSlot, status);
    }
    if ExistsByResourceAndBookingDateAndTimeSlotAndStatusNot(bookings, b.resourceId, b.bookingDate, b.timeSlot, status) {
      var id :| id in bookings && MatchesStatusNot(bookings, id, b.resourceId, b.bookingDate, b.timeSlot, status);
      assert MatchesStatusNot(t, id, b.resourceId, b.bookingDate, b.timeSlot, status);
    }
  }

  /** A stored booking whose status differs from `status` makes the query for its own slot true. */
  lemma StoredBookingMatches(bookings: BookingTable, id: int, status: BookingStatus)
    requires id in bookings && bookings[id].status != status
    ensures ExistsByResourceAndBookingDateAndTimeSlotAndStatusNot(
      bookings, bookings[id].resourceId, bookings[id].bookingDate, bookings[id].timeSlot, status)
  {
    assert MatchesStatusNot(bookings, id, bookings[id].resourceId, bookings[id].bookingDate, bookings[id].timeSlot, status);
  }
}

=== FILE: booking_service.dfy ===
/**
 * The booking service: creation with the slot-conflict check and the
 * role-based initial status, status updates, lookups and the availability
 * query, over the shared database.
 */
module BookingService {
  import opened Results
  import opened Entities
  import opened BookingRepository
  import opened Store

  /** The status a new booking is saved with: approved for administrators, pending otherwise. */
  function InitialStatus(role: Role): (s: BookingStatus)
    ensures s == APPROVED <==> role == ADMIN
    ensures s != REJECTED
  {
    if role == ADMIN then APPROVED else PENDING
  }

  /** The slot is occupied: some booking on it is not rejected. */
  predicate SlotTaken(bookings: BookingTable, resourceId: int, date: LocalDate, timeSlot: string)
  {
    ExistsByResourceAndBookingDateAndTimeSlotAndStatusNot(bookings, resourceId, date, timeSlot, REJECTED)
  }

  /** At most one non-rejected booking per resource, date and time slot. */
  ghost predicate SlotsUnique(bookings: BookingTable)
  {
    forall i, j :: i in bookings && j in bookings && i != j
      && bookings[i].status != REJECTED && bookings[j].status != REJECTED
      ==> !SameSlot(bookings[i], bookings[j])
  }

  /** Saving a booking on a free slot keeps the slots unique. */
  lemma InsertOnFreeSlotKeepsSlotsUnique(bookings: BookingTable, b: Booking)
    requires SlotsUnique(bookings)
    requires b.id !in bookings
    requires !SlotTaken(bookings, b.resourceId, b.bookingDate, b.timeSlot)
    ensures SlotsUnique(bookings[b.id := b])
  {
    var t := bookings[b.id := b];
    forall i, j | i in t && j in t && i != j && t[i].status != REJECTED && t[j].status != REJECTED
      ensures !SameSlot(t[i], t[j])
    {
      if i == b.id {
        assert !MatchesStatusNot(bookings, j, b.resourceId, b.bookingDate, b.timeSlot, REJECTED);
      } else if j == b.id {
        assert !MatchesStatusNot(bookings, i, b.resourceId, b.bookingDate, b.timeSlot, REJECTED);
      }
    }
  }

  /**
   * One approved booking takes its own slot and no other: a different time
   * slot or a different resource on the same day is still free.
   */
  lemma SlotTakenScenario()
    ensures var date := LocalDate(2026, 1, 10);
      var bookings := map[1 := Booking(1, 1, 1, date, "09:00 - 10:00", APPROVED)];
      && SlotTaken(bookings, 1, date, "09:00 - 10:00")
      && !SlotTaken(bookings, 1, date, "10:00 - 11:00")
      && !SlotTaken(bookings, 2, date, "09:00 - 10:00")
      && !SlotTaken(bookings[1 := bookings[1].(status := REJECTED)], 1, date, "09:00 - 10:00")
  {
    var date := LocalDate(2026, 1, 10);
    var bookings := map[1 := Booking(1, 1, 1, date, "09:00 - 10:00", APPROVED)];
    assert MatchesStatusNot(bookings, 1, 1, date, "09:00 - 10:00", REJECTED);
    assert "09:00 - 10:00" != "10:00 - 11:00" by {
      assert "09:00 - 10:00"[1] != "10:00 - 11:00"[1];
    }
  }

  /** A booking saved with a non-rejected status occupies its slot. */
  lemma SavedBookingTakesSlot(bookings: BookingTable, b: Booking)
    requires b.status != REJECTED
    ensures SlotTaken(bookings[b.id := b], b.resourceId, b.bookingDate, b.timeSlot)
  {
    StoredBookingMatches(bookings[b.id := b], b.id, REJECTED);
  }

  /** The table after `updateBookingStatus(id, status)`. */
  function WithStatus(bookings: BookingTable, id: int, status: BookingStatus): (r: BookingTable)
    requires id in bookings
    ensures r.Keys == bookings.Keys
    ensures r[id] == bookings[id].(status := status)
    ensures forall k :: k in bookings && k != id ==> r[k] == bookings[k]
  {
    bookings[id := bookings[id].(status := status)]
  }

  /**
   * A status update keeps the slots unique when it rejects, or when the
   * booking it touches was not rejected before.
   */
  lemma WithStatusKeepsSlotsUnique(bookings: BookingTable, id: int, status: BookingStatus)
    requires SlotsUnique(bookings) && id in bookings
    requires status == REJECTED || bookings[id].status != REJECTED
    ensures SlotsUnique(WithStatus(bookings, id, status))
  {
    var t := WithStatus(bookings, id, status);
    forall i, j | i in t && j in t && i != j && t[i].status != REJECTED && t[j].status != REJECTED
      ensures !SameSlot(t[i], t[j])
    {
      assert bookings[i].status != REJECTED && bookings[j].status != REJECTED;
      assert SameSlot(t[i], t[j]) == SameSlot(bookings[i], bookings[j]);
    }
  }

  /**
   * The service does not check the current status: moving a rejected booking
   * back to pending can put two live bookings on one slot.
   */
  lemma WithStatusCanBreakSlotsUnique()
    ensures exists bookings: BookingTable, id: int ::
      id in bookings && SlotsUnique(bookings) && !SlotsUnique(WithStatus(bookings, id, PENDING))
  {
    var date := LocalDate(2026, 1, 10);
    var rejected := Booking(1, 1, 1, date, "09:00 - 10:00", REJECTED);
    var pending := Booking(2, 2, 1, date, "09:00 - 10:00", PENDING);
    var bookings := map[1 := rejected, 2 := pending];
    assert SlotsUnique(bookings);
    var t := WithStatus(bookings, 1, PENDING);
    assert t[1].status != REJECTED && t[2].status != REJECTED && SameSlot(t[1], t[2]);
    assert !SlotsUnique(t);
  }

  /**
   * `createBooking(userId, resourceId, bookingRequest)`, as one atomic step:
   * the check and the save are not interleaved with other requests.
   */
  method CreateBooking(db: Database, userId: int, resourceId: int, request: BookingRequest)
    returns (r: Result<Booking, Failure>)
    requires db.Valid()
    modifies db
    ensures db.Valid()
    ensures userId !in old(db.users) ==> r == Failure(RuntimeException("User not found"))
    ensures userId in old(db.users) && resourceId !in old(db.resources) ==>
      r == Failure(RuntimeException("Resource not found"))
    ensures (userId in old(db.users) && resourceId in old(db.resources)
             && SlotTaken(old(db.bookings), resourceId, request.bookingDate, request.timeSlot)) ==>
      r == Failure(RuntimeException("Resource already booked for this slot"))
    ensures r.Failure? ==> unchanged(db)
    ensures (userId in old(db.users) && resourceId in old(db.resources)
             && !SlotTaken(old(db.bookings), resourceId, request.bookingDate, request.timeSlot)) ==>
      r.Success?
    ensures r.Success? ==>
      && userId in old(db.users) && resourceId in old(db.resources)
      && !SlotTaken(old(db.bookings), resourceId, request.bookingDate, request.timeSlot)
      && r.value.id !in old(db.bookings)
      && r.value == Booking(r.value.id, userId, resourceId, request.bookingDate, request.timeSlot,
                            InitialStatus(old(db.users)[userId].role))
      && db.bookings == old(db.bookings)[r.value.id := r.value]
      && db.users == old(db.users) && db.resources == old(db.resources)
      && db.nextBookingId == old(db.nextBookingId) + 1
    ensures db.nextUserId == old(db.nextUserId) && db.nextResourceId == old(db.nextResourceId)
    ensures old(SlotsUnique(db.bookings)) ==> SlotsUnique(db.bookings)
  {
    if userId !in db.users {
      return Failure(RuntimeException("User not found"));
    }
    var user := db.users[userId];
    if resourceId !in db.resources {
      return Failure(RuntimeException("Resource not found"));
    }
    var taken := SlotTaken(db.bookings, resourceId, request.bookingDate, request.timeSlot);
    if taken {
      return Failure(RuntimeException("Resource already booked for this slot"));
    }
    // the request's own status is discarded: the role decides
    var status := InitialStatus(user.role);
    ghost var before := db.bookings;
    var saved := db.InsertBooking(Booking(0, userId, resourceId, request.bookingDate, request.timeSlot, status));
    if SlotsUnique(before) {
      InsertOnFreeSlotKeepsSlotsUnique(before, saved);
    }
    r := Success(saved);
  }

  /** `getAllBookings`. */
  method GetAllBookings(db: Database) returns (r: BookingTable)
    ensures r == db.bookings
  {
    r := db.bookings;
  }

  /** `updateBookingStatus(bookingId, status)`: overwrites the status, whatever it was. */
  method UpdateBookingStatus(db: Database, bookingId: int, status: BookingStatus)
    returns (r: Result<Booking, Failure>)
    requires db.Valid()
    modifies db
    ensures db.Valid()
    ensures bookingId !in old(db.bookings) ==>
      r == Failure(RuntimeException("Booking not found")) && unchanged(db)
    ensures bookingId in old(db.bookings) ==>
      && r == Success(old(db.bookings)[bookingId].(status := status))
      && db.bookings == WithStatus(old(db.bookings), bookingId, status)
      && db.users == old(db.users) && db.resources == old(db.resources)
    ensures db.nextUserId == old(db.nextUserId) && db.nextResourceId == old(db.nextResourceId)
    ensures db.nextBookingId == old(db.nextBookingId)
  {
    if bookingId !in db.bookings {
      return Failure(RuntimeException("Booking not found"));
    }
    var booking := db.bookings[bookingId];
    booking := booking.(status := status);
    db.bookings := db.bookings[bookingId := booking];
    r := Success(booking);
  }

  /** `getBookingsByUser`. */
  method GetBookingsByUser(db: Database, userId: int) returns (r: BookingTable)
    ensures r == FindByUserId(db.bookings, userId)
  {
    r := FindByUserId(db.bookings, userId);
  }

  /** `getBookingsByResource`. */
  method GetBookingsByResource(db: Database, resourceId: int) returns (r: BookingTable)
    ensures r == FindByResourceId(db.bookings, resourceId)
  {
    r := FindByResourceId(db.bookings, resourceId);
  }

  /** The map `checkAvailability` returns. */
  datatype Availability = Availability(available: bool, resourceId: int, date: LocalDate, timeSlot: string)

  /** `checkAvailability(resourceId, date, timeSlot)`. */
  method CheckAvailability(db: Database, resourceId: int, date: LocalDate, timeSlot: string)
    returns (r: Result<Availability, Failure>)
    ensures resourceId !in db.resources ==> r == Failure(RuntimeException("Resource not found"))
    ensures resourceId in db.resources ==>
      && r.Success?
      && r.value.available == !SlotTaken(db.bookings, resourceId, date, timeSlot)
      && r.value.resourceId == resourceId && r.value.date == date && r.value.timeSlot == timeSlot
  {
    if resourceId !in db.resources {
      return Failure(RuntimeException("Resource not found"));
    }
    var taken := ExistsByResourceAndBookingDateAndTimeSlotAndStatusNot(db.bookings, resourceId, date, timeSlot, REJECTED);
    var result := Availability(false, 0, LocalDate(0, 0, 0), "");
    result := result.(available := !taken);
    result := result.(resourceId := resourceId);
    result := result.(date := date);
    result := result.(timeSlot := timeSlot);
    r := Success(result);
  }

  /** A successful creation makes the availability query report the slot as taken. */
  method CreateThenCheck(db: Database, userId: int, resourceId: int, request: BookingRequest)
    returns (created: Result<Booking, Failure>, check: Result<Availability, Failure>)
    requires db.Valid()
    modifies db
    ensures (userId in old(db.users) && resourceId in old(db.resources)
             && !SlotTaken(old(db.bookings), resourceId, request.bookingDate, request.timeSlot)) ==>
      created.Success?
    ensures created.Success? ==> check.Success? && !check.value.available
  {
    created := CreateBooking(db, userId, resourceId, request);
    if created.Success? {
      SavedBookingTakesSlot(old(db.bookings), created.value);
    }
    check := CheckAvailability(db, resourceId, request.bookingDate, request.timeSlot);
  }
}

=== FILE: bookings_page.dfy ===
/**
 * The bookings screen: the fixed time-slot catalog, the calendar month
 * navigation, the date string a clicked day produces, the availability
 * check on slot selection, the guards of the booking form, the status tabs
 * with their counts, and the per-row approve/reject/delete actions.
 */
module BookingsPage {
  import opened Results
  import opened Entities
  import opened Seqs
  import opened Text
  import opened Api
  import opened Toasts
  import opened BookingRepository
  import opened BookingService

  // ------------------------------------------------------------ time slots

  const TimeSlots: seq<string> := [
    "08:00 - 09:00", "09:00 - 10:00", "10:00 - 11:00", "11:00 - 12:00",
    "12:00 - 13:00", "13:00 - 14:00", "14:00 - 15:00", "15:00 - 16:00",
    "16:00 - 17:00", "17:00 - 18:00"]

  /** The hour `h` as two digits. */
  function TwoDigitHour(h: nat): string
    requires h < 100
  {
    [DigitChar(h / 10), DigitChar(h % 10)]
  }

  /** The two digits are the hour zero-padded to width two (`padStart(2, '0')`), and read back as the hour. */
  lemma TwoDigitHourSpec(h: nat)
    requires h < 100
    ensures TwoDigitHour(h) == PadStart2(NatToString(h))
    ensures ParseInt(TwoDigitHour(h)) == Some(h)
  {
    TwoDigitString(h);
    TwoDigits(h);
  }

  /** The label of the one-hour slot starting at `hour`. */
  function SlotLabel(hour: nat): string
    requires hour < 99
  {
    TwoDigitHour(hour) + ":00 - " + TwoDigitHour(hour + 1) + ":00"
  }

  /** Different hours give different labels: the first two characters spell the hour. */
  lemma SlotLabelInjective(h: nat, k: nat)
    requires h < 99 && k < 99 && h != k
    ensures SlotLabel(h) != SlotLabel(k)
  {
    assert h == h / 10 * 10 + h % 10 && k == k / 10 * 10 + k % 10;
    assert SlotLabel(h)[..2] == TwoDigitHour(h) && SlotLabel(k)[..2] == TwoDigitHour(k);
  }

  /** Entry `i` of the catalog is the slot starting at hour 8 + i. */
  lemma SlotLabelAt(i: nat)
    requires i < 10
    ensures TimeSlots[i] == SlotLabel(8 + i)
  {
  }

  /** The catalog is the ten consecutive one-hour slots from 08:00 to 18:00, all distinct. */
  lemma TimeSlotsCatalog()
    ensures |TimeSlots| == 10
    ensures forall i :: 0 <= i < |TimeSlots| ==> TimeSlots[i] == SlotLabel(8 + i)
    ensures forall i, j :: 0 <= i < j < |TimeSlots| ==> TimeSlots[i] != TimeSlots[j]
  {
    forall i | 0 <= i < |TimeSlots| ensures TimeSlots[i] == SlotLabel(8 + i) {
      SlotLabelAt(i);
    }
    forall i, j | 0 <= i < j < |TimeSlots| ensures TimeSlots[i] != TimeSlots[j] {
      SlotLabelAt(i);
      SlotLabelAt(j);
      SlotLabelInjective(8 + i, 8 + j);
    }
  }

  // ------------------------------------------------------------ calendar

  /** The month shown by the calendar: `calMonth` (0 = January) and `calYear`. */
  datatype MonthView = MonthView(month: int, year: int)

  predicate ValidMonth(v: MonthView)
  {
    0 <= v.month <= 11
  }

  /** Months counted from year 0, January. */
  function MonthIndex(v: MonthView): int
  {
    v.year * 12 + v.month
  }

  /** Two valid views with the same month count are the same view. */
  lemma MonthIndexInjective(v: MonthView, w: MonthView)
    requires ValidMonth(v) && ValidMonth(w) && MonthIndex(v) == MonthIndex(w)
    ensures v == w
  {
  }

  /** The "previous month" button: January goes back to December of the year before. */
  function PrevMonth(v: MonthView): (r: MonthView)
    requires ValidMonth(v)
    ensures ValidMonth(r) && MonthIndex(r) == MonthIndex(v) - 1
  {
    if v.month == 0 then MonthView(11, v.year - 1) else MonthView(v.month - 1, v.year)
  }

  /** The "next month" button: December goes on to January of the year after. */
  function NextMonth(v: MonthView): (r: MonthView)
    requires ValidMonth(v)
    ensures ValidMonth(r) && MonthIndex(r) == MonthIndex(v) + 1
  {
    if v.month == 11 then MonthView(0, v.year + 1) else MonthView(v.month + 1, v.year)
  }

  /** The two buttons undo each other. */
  lemma PrevNextInverse(v: MonthView)
    requires ValidMonth(v)
    ensures NextMonth(PrevMonth(v)) == v
    ensures PrevMonth(NextMonth(v)) == v
  {
    MonthIndexInjective(NextMonth(PrevMonth(v)), v);
    MonthIndexInjective(PrevMonth(NextMonth(v)), v);
  }

  /** The `yyyy-MM-dd` string `handleDateSelect(day)` builds; `month` counts from 0. */
  function DateString(year: int, month: int, day: int): string
  {
    IntToString(year) + "-" + PadStart2(IntToString(month + 1)) + "-" + PadStart2(IntToString(day))
  }

  lemma {:induction false} FourDigitYear(year: nat)
    requires 1000 <= year <= 9999
    ensures |NatToString(year)| == 4
  {
    assert |NatToString(year / 1000)| == 1;
    assert |NatToString(year / 100)| == |NatToString(year / 1000)| + 1;
    assert |NatToString(year / 10)| == |NatToString(year / 100)| + 1;
  }

  /** The fields of `y-m-d` for a four-character `y` and a two-character `m` sit at fixed positions. */
  lemma DashedFields(y: string, m: string, d: string)
    requires |y| == 4 && |m| == 2
    ensures var s := y + "-" + m + "-" + d;
      && |s| == 8 + |d| && s[4] == '-' && s[7] == '-'
      && s[..4] == y && s[5..7] == m && s[8..] == d
  {
    var s := y + "-" + m + "-" + d;
    assert s[..4] == y;
    assert s[5..7] == m;
    assert s[8..] == d;
  }

  /**
   * For a four-digit year, a month of the calendar and a day of a month, the
   * date string is ten characters, dashes at 4 and 7, and its three fields
   * read back as the year, the month counted from 1 and the day.
   */
  lemma DateStringFields(year: int, month: int, day: int)
    requires 1000 <= year <= 9999 && 0 <= month <= 11 && 1 <= day <= 31
    ensures var s := DateString(year, month, day);
      && |s| == 10 && s[4] == '-' && s[7] == '-'
      && ParseInt(s[..4]) == Some(year)
      && ParseInt(s[5..7]) == Some(month + 1)
      && ParseInt(s[8..]) == Some(day)
  {
    var y, m, d := NatToString(year), PadStart2(NatToString(month + 1)), PadStart2(NatToString(day));
    assert DateString(year, month, day) == y + "-" + m + "-" + d;
    FourDigitYear(year);
    TwoDigits(month + 1);
    TwoDigits(day);
    ParseIntOfIntToString(year);
    DashedFields(y, m, d);
  }

  // ------------------------------------------------------------ availability check

  /** The JavaScript value `res.data` can be, as far as truthiness goes. */
  datatype JsValue = Undefined | Null | Bool(b: bool) | Object(availability: Availability)

  /** JavaScript truthiness; every object, whatever it holds, is truthy. */
  predicate Truthy(v: JsValue)
  {
    match v
    case Undefined => false
    case Null => false
    case Bool(b) => b
    case Object(_) => true
  }

  /**
   * The conflict flag `handleSlotSelect` leaves, AS WRITTEN: when the check
   * was made (`queried`) and answered (`reply` is not `None`), conflict is
   * `!res.data`.
   */
  predicate SlotConflictAsWritten(queried: bool, reply: Option<JsValue>)
  {
    queried && reply.Some? && !Truthy(reply.value)
  }

  /** The flag as evidently intended: the server's `available` field, negated. */
  predicate SlotConflict(queried: bool, reply: Option<JsValue>)
  {
    queried && reply.Some? && reply.value.Object? && !reply.value.availability.available
  }

  /**
   * As written, the server's answer for a slot that is taken never raises
   * the flag: the reply is a map, and a map is truthy.
   */
  lemma AsWrittenMissesTakenSlot(bookings: BookingTable, a: Availability)
    requires SlotTaken(bookings, a.resourceId, a.date, a.timeSlot)
    requires a.available == !SlotTaken(bookings, a.resourceId, a.date, a.timeSlot)
    ensures !a.available
    ensures !SlotConflictAsWritten(true, Some(Object(a)))
  {
  }

  /** The corrected flag is raised exactly when the server reports the slot taken. */
  lemma CorrectedFlagsTakenSlot(bookings: BookingTable, a: Availability)
    requires a.available == !SlotTaken(bookings, a.resourceId, a.date, a.timeSlot)
    ensures SlotConflict(true, Some(Object(a))) <==> SlotTaken(bookings, a.resourceId, a.date, a.timeSlot)
  {
  }

  // ------------------------------------------------------------ status tabs and rows

  datatype StatusFilter = AllStatuses | OnlyStatus(status: BookingStatus)

  predicate Shown(f: StatusFilter, b: Booking)
  {
    f.AllStatuses? || b.status == f.status
  }

  /** `filteredBookings`. */
  function FilteredBookings(bookings: seq<Booking>, f: StatusFilter): (r: seq<Booking>)
    ensures IsSubsequence(r, bookings)
    ensures forall b :: b in r <==> b in bookings && Shown(f, b)
    ensures f.AllStatuses? ==> r == bookings
  {
    var p := (b: Booking) => Shown(f, b);
    FilterIsSubsequence(bookings, p);
    forall b ensures b in Filter(bookings, p) <==> b in bookings && Shown(f, b) {
      FilterMembership(bookings, p, b);
    }
    if f.AllStatuses? then FilterAllPass(bookings, p); Filter(bookings, p)
    else Filter(bookings, p)
  }

  /** The count on a status tab: `bookings.filter(b => b.status === status).length`. */
  function StatusCount(bookings: seq<Booking>, s: BookingStatus): nat
  {
    Count(bookings, (b: Booking) => b.status == s)
  }

  /** The three status tabs together count every booking, which is the "All" tab's count. */
  lemma {:induction false} StatusCountsPartition(bookings: seq<Booking>)
    ensures StatusCount(bookings, PENDING) + StatusCount(bookings, APPROVED) + StatusCount(bookings, REJECTED)
      == |bookings|
  {
    if bookings != [] {
      StatusCountsPartition(bookings[1..]);
    }
  }

  /** A status tab's count is the number of rows the tab shows. */
  lemma TabCountMatchesRows(bookings: seq<Booking>, s: BookingStatus)
    ensures |FilteredBookings(bookings, OnlyStatus(s))| == StatusCount(bookings, s)
  {
    FilterAgree(bookings, (b: Booking) => Shown(OnlyStatus(s), b), (b: Booking) => b.status == s);
  }

  /** The action buttons shown on a booking's row. */
  datatype RowActions = RowActions(approve: bool, reject: bool, delete: bool)

  /** Approve and reject only on pending bookings; delete always. */
  function ActionsFor(b: Booking): (r: RowActions)
    ensures r.approve <==> b.status == PENDING
    ensures r.reject <==> b.status == PENDING
    ensures r.delete
  {
    var pending := b.status == PENDING;
    RowActions(pending, pending, true)
  }

  /**
   * The status changes the screen offers never put two live bookings on one
   * slot, provided the row is still pending in the server's table: they then
   * start from a booking that already occupies the slot. A stale row (one
   * another client has since rejected) still offers the buttons, and the
   * server does not check the current status.
   */
  lemma OfferedStatusChangeKeepsSlotsUnique(bookings: BookingTable, id: int, status: BookingStatus)
    requires SlotsUnique(bookings) && id in bookings
    requires ActionsFor(bookings[id]).approve
    ensures SlotsUnique(WithStatus(bookings, id, status))
  {
    WithStatusKeepsSlotsUnique(bookings, id, status);
  }

  /** The enum constant's name, as the server sends it. */
  function StatusName(s: BookingStatus): string
  {
    match s
    case PENDING => "PENDING"
    case APPROVED => "APPROVED"
    case REJECTED => "REJECTED"
  }

  /** The toast after a status change: `Booking ${status.toLowerCase()}`. */
  function StatusMessage(s: BookingStatus): string
  {
    "Booking " + Lower(StatusName(s))
  }

  /** Approving announces "Booking approved". */
  lemma StatusMessageApproved()
    ensures StatusMessage(APPROVED) == "Booking approved"
  {
    StatusMessageOf(APPROVED, "approved");
  }

  /** Rejecting announces "Booking rejected". */
  lemma StatusMessageRejected()
    ensures StatusMessage(REJECTED) == "Booking rejected"
  {
    StatusMessageOf(REJECTED, "rejected");
  }

  /** A change back to pending announces "Booking pending". */
  lemma StatusMessagePending()
    ensures StatusMessage(PENDING) == "Booking pending"
  {
    StatusMessageOf(PENDING, "pending");
  }

  /** The toast is "Booking " followed by the status name in lower case. */
  lemma StatusMessageOf(s: BookingStatus, word: string)
    requires |word| == |StatusName(s)|
    requires forall i :: 0 <= i < |word| ==> word[i] as int == StatusName(s)[i] as int + 32
    ensures StatusMessage(s) == "Booking " + word
  {
    LowerWord(StatusName(s), word);
  }

  // ------------------------------------------------------------ the screen state

  /** `createBookingAPI(selectedUser, selectedResource, { bookingDate, timeSlot })`. */
  datatype CreateCall = CreateCall(userId: string, resourceId: string, bookingDate: string, timeSlot: string)

  class BookingsScreen {
    var bookings: seq<Booking>
    var users: seq<User>
    var resources: seq<Resource>
    var loading: bool
    var showModal: bool
    var selectedDate: string
    var selectedSlot: string
    var selectedUser: string
    var selectedResource: string
    var conflict: bool
    var bookingSuccess: bool
    var calMonth: int
    var calYear: int
    var statusFilter: StatusFilter

    ghost predicate Valid()
      reads this
    {
      0 <= calMonth <= 11
    }

    function Month(): MonthView
      reads this
    {
      MonthView(calMonth, calYear)
    }

    /** All four fields of the booking form are filled. */
    predicate FormComplete()
      reads this
    {
      selectedUser != "" && selectedResource != "" && selectedDate != "" && selectedSlot != ""
    }

    /** Initial state; `month` and `year` are today's, read from the clock. */
    constructor (month: int, year: int)
      requires 0 <= month <= 11
      ensures Valid() && Month() == MonthView(month, year)
      ensures bookings == [] && users == [] && resources == [] && loading && !showModal && !conflict && !bookingSuccess
      ensures selectedDate == "" && selectedSlot == "" && selectedUser == "" && selectedResource == ""
      ensures statusFilter == AllStatuses
    {
      bookings, users, resources := [], [], [];
      loading, showModal := true, false;
      selectedDate, selectedSlot, selectedUser, selectedResource := "", "", "", "";
      conflict, bookingSuccess := false, false;
      calMonth, calYear := month, year;
      statusFilter := AllStatuses;
    }

    /** `loadAll`: each failed fetch reads as an empty list. */
    method LoadAll(bRes: Fetch<Booking>, uRes: Fetch<User>, rRes: Fetch<Resource>)
      modifies this`bookings, this`users, this`resources, this`loading
      ensures bookings == DataOrEmpty(bRes) && users == DataOrEmpty(uRes) && resources == DataOrEmpty(rRes)
      ensures !loading
    {
      loading := true;
      bookings := DataOrEmpty(bRes);
      users := DataOrEmpty(uRes);
      resources := DataOrEmpty(rRes);
      loading := false;
    }

    /** `handleDateSelect(day)`. */
    method HandleDateSelect(day: int)
      modifies this`selectedDate, this`conflict
      ensures selectedDate == DateString(calYear, calMonth, day)
      ensures !conflict
    {
      var m := PadStart2(IntToString(calMonth + 1));
      var d := PadStart2(IntToString(day));
      selectedDate := IntToString(calYear) + "-" + m + "-" + d;
      conflict := false;
    }

    /**
     * `handleSlotSelect(slot)` AS WRITTEN. `reply` is what the availability
     * call gave (`None` when it threw); it is consulted only when a resource
     * and a date are selected, which `queried` reports.
     */
    method HandleSlotSelect(slot: string, reply: Option<JsValue>) returns (queried: bool)
      modifies this`selectedSlot, this`conflict
      ensures selectedSlot == slot
      ensures queried <==> selectedResource != "" && selectedDate != ""
      ensures conflict == SlotConflictAsWritten(queried, reply)
    {
      selectedSlot := slot;
      conflict := false;
      queried := selectedResource != "" && selectedDate != "";
      if queried {
        if reply.Some? {
          var data := reply.value;
          if !Truthy(data) {
            conflict := true;
          }
        }
      }
    }

    /** `handleSlotSelect(slot)` reading the reply's `available` field, as evidently intended. */
    method HandleSlotSelectCorrected(slot: string, reply: Option<JsValue>) returns (queried: bool)
      modifies this`selectedSlot, this`conflict
      ensures selectedSlot == slot
      ensures queried <==> selectedResource != "" && selectedDate != ""
      ensures conflict == SlotConflict(queried, reply)
    {
      selectedSlot := slot;
      conflict := false;
      queried := selectedResource != "" && selectedDate != "";
      if queried {
        if reply.Some? && reply.value.Object? {
          if !reply.value.availability.available {
            conflict := true;
          }
        }
      }
    }

    /**
     * `handleBooking`. `createSucceeds` is the outcome of the create call,
     * when one is made; `call` is that call and `notice` the toast shown.
     */
    method HandleBooking(createSucceeds: bool) returns (call: Option<CreateCall>, notice: Notice)
      modifies this`bookingSuccess
      ensures !FormComplete() ==>
        call == None && notice == Notice("Please fill all booking fields", Warning)
        && bookingSuccess == old(bookingSuccess)
      ensures FormComplete() && conflict ==>
        call == None && notice == Notice("Time slot unavailable — conflict detected", Error)
        && bookingSuccess == old(bookingSuccess)
      ensures call.Some? <==> FormComplete() && !conflict
      ensures call.Some? ==>
        && call.value == CreateCall(selectedUser, selectedResource, selectedDate, selectedSlot)
        && (createSucceeds ==> bookingSuccess && notice == Notice("Booking created successfully!", ToastType.Success))
        && (!createSucceeds ==> bookingSuccess == old(bookingSuccess) && notice == Notice("Error creating booking", Error))
    {
      if selectedUser == "" || selectedResource == "" || selectedDate == "" || selectedSlot == "" {
        return None, Notice("Please fill all booking fields", Warning);
      }
      if conflict {
        return None, Notice("Time slot unavailable — conflict detected", Error);
      }
      call := Some(CreateCall(selectedUser, selectedResource, selectedDate, selectedSlot));
      if createSucceeds {
        bookingSuccess := true;
        notice := Notice("Booking created successfully!", ToastType.Success);
      } else {
        notice := Notice("Error creating booking", Error);
      }
    }

    /** `handleStatus(id, status)`: the update call, then a toast naming the new status. */
    method HandleStatus(id: int, status: BookingStatus, succeeds: bool) returns (call: (int, BookingStatus), notice: Notice)
      ensures call == (id, status)
      ensures succeeds ==> notice == Notice(StatusMessage(status), ToastType.Success)
      ensures !succeeds ==> notice == Notice("Error updating booking", Error)
    {
      call := (id, status);
      if succeeds {
        notice := Notice("Booking " + Lower(StatusName(status)), ToastType.Success);
      } else {
        notice := Notice("Error updating booking", Error);
      }
    }

    /** `handleDelete(id)`: nothing happens unless the confirmation dialog is accepted. */
    method HandleDelete(id: int, confirmed: bool, deleteSucceeds: bool) returns (call: Option<int>, notice: Option<Notice>)
      ensures !confirmed ==> call == None && notice == None
      ensures confirmed && deleteSucceeds ==> call == Some(id) && notice == Some(Notice("Booking deleted", ToastType.Success))
      ensures confirmed && !deleteSucceeds ==> call == Some(id) && notice == Some(Notice("Error deleting booking", Error))
    {
      if !confirmed {
        return None, None;
      }
      call := Some(id);
      if deleteSucceeds {
        notice := Some(Notice("Booking deleted", ToastType.Success));
      } else {
        notice := Some(Notice("Error deleting booking", Error));
      }
    }

    /** The timer 1.8 s after a successful booking: close the form and clear it (a reload follows). */
    method BookingSettled()
      modifies this`bookingSuccess, this`showModal, this`selectedDate, this`selectedSlot,
        this`selectedUser, this`selectedResource
      ensures !bookingSuccess && !showModal
      ensures selectedDate == "" && selectedSlot == "" && selectedUser == "" && selectedResource == ""
      ensures !FormComplete()
    {
      bookingSuccess, showModal := false, false;
      selectedDate, selectedSlot, selectedUser, selectedResource := "", "", "", "";
    }

    /** The calendar's left arrow. */
    method HandlePrevMonth()
      requires Valid()
      modifies this`calMonth, this`calYear
      ensures Valid() && Month() == PrevMonth(old(Month()))
    {
      if calMonth == 0 {
        calMonth := 11;
        calYear := calYear - 1;
      } else {
        calMonth := calMonth - 1;
      }
    }

    /** The calendar's right arrow. */
    method HandleNextMonth()
      requires Valid()
      modifies this`calMonth, this`calYear
      ensures Valid() && Month() == NextMonth(old(Month()))
    {
      if calMonth == 11 {
        calMonth := 0;
        calYear := calYear + 1;
      } else {
        calMonth := calMonth + 1;
      }
    }

    /** A status tab is clicked. */
    method SetStatusFilter(f: StatusFilter)
      modifies this`statusFilter
      ensures statusFilter == f
    {
      statusFilter := f;
    }
  }

  /**
   * A client run of the finding: with the form filled and a server reply
   * saying the slot is taken, the screen as written still sends the create
   * call, while the corrected handler blocks it.
   */
  method TakenSlotStillSubmitted(screen: BookingsScreen, slot: string, a: Availability)
    returns (asWritten: Option<CreateCall>, corrected: Option<CreateCall>)
    requires screen.selectedUser != "" && screen.selectedResource != "" && screen.selectedDate != ""
    requires slot != "" && !a.available
    modifies screen`selectedSlot, screen`conflict, screen`bookingSuccess
    ensures asWritten == Some(CreateCall(old(screen.selectedUser), old(screen.selectedResource), old(screen.selectedDate), slot))
    ensures corrected == None
    ensures screen.selectedUser == old(screen.selectedUser) && screen.selectedResource == old(screen.selectedResource)
    ensures screen.selectedDate == old(screen.selectedDate) && screen.selectedSlot == slot
  {
    var _ := screen.HandleSlotSelect(slot, Some(Object(a)));
    var notice;
    asWritten, notice := screen.HandleBooking(false);
    var _ := screen.HandleSlotSelectCorrected(slot, Some(Object(a)));
    corrected, notice := screen.HandleBooking(false);
  }
}

=== FILE: dashboard_page.dfy ===
/**
 * The dashboard: the four counters computed from the three list fetches,
 * the five most recent bookings, and the colour of a status badge.
 */
module DashboardPage {
  import opened Entities
  import opened Seqs
  import opened Api

  /** The `stats` state. */
  datatype Stats = Stats(users: nat, resources: nat, bookings: nat, pending: nat)

  /** The number of bookings whose status is `PENDING`. */
  function PendingCount(bookings: seq<Booking>): (n: nat)
    ensures n <= |bookings|
  {
    Count(bookings, (b: Booking) => b.status == PENDING)
  }

  /** The counters: three list lengths and the pending bookings among the bookings. */
  function ComputeStats(users: seq<User>, resources: seq<Resource>, bookings: seq<Booking>): (s: Stats)
    ensures s.users == |users| && s.resources == |resources| && s.bookings == |bookings|
    ensures s.pending == PendingCount(bookings) && s.pending <= s.bookings
  {
    Stats(|users|, |resources|, |bookings|, PendingCount(bookings))
  }

  /** Appending a booking raises the pending counter by one when it is pending, and leaves it otherwise. */
  lemma {:induction false} PendingCountAppend(bookings: seq<Booking>, b: Booking)
    ensures PendingCount(bookings + [b]) == PendingCount(bookings) + (if b.status == PENDING then 1 else 0)
  {
    FilterConcat(bookings, [b], (x: Booking) => x.status == PENDING);
  }

  /** Every booking is pending exactly when the pending counter equals the bookings counter. */
  lemma {:induction false} AllPendingIffCountsEqual(bookings: seq<Booking>)
    ensures PendingCount(bookings) == |bookings| <==> forall i :: 0 <= i < |bookings| ==> bookings[i].status == PENDING
  {
    if bookings != [] {
      AllPendingIffCountsEqual(bookings[1..]);
      assert forall i :: 1 <= i < |bookings| ==> bookings[i] == bookings[1..][i - 1];
    }
  }

  /** A failed fetch shows 0 on its counter. */
  lemma FailedFetchCountsZero(u: Fetch<User>, r: Fetch<Resource>, b: Fetch<Booking>)
    ensures var s := ComputeStats(DataOrEmpty(u), DataOrEmpty(r), DataOrEmpty(b));
      && (u.FetchFailed? ==> s.users == 0)
      && (r.FetchFailed? ==> s.resources == 0)
      && (b.FetchFailed? ==> s.bookings == 0 && s.pending == 0)
  {
  }

  /** `bookings.slice(-5).reverse()`. */
  function RecentBookings(bookings: seq<Booking>): (r: seq<Booking>)
    ensures |r| == if |bookings| < 5 then |bookings| else 5
    ensures forall i :: 0 <= i < |r| ==> r[i] == bookings[|bookings| - 1 - i]
  {
    Reverse(TakeLast(bookings, 5))
  }

  /** The Tailwind classes of a status badge. */
  function StatusColor(status: BookingStatus): (c: string)
    ensures status == APPROVED ==> c == "bg-emerald-100 text-emerald-700"
    ensures status == REJECTED ==> c == "bg-red-100 text-red-700"
    ensures status != APPROVED && status != REJECTED ==> c == "bg-amber-100 text-amber-700"
  {
    match status
    case APPROVED => "bg-emerald-100 text-emerald-700"
    case REJECTED => "bg-red-100 text-red-700"
    case _ => "bg-amber-100 text-amber-700"
  }

  class Dashboard {
    var stats: Stats
    var recentBookings: seq<Booking>
    var loading: bool

    constructor ()
      ensures stats == Stats(0, 0, 0, 0) && recentBookings == [] && loading
    {
      stats, recentBookings, loading := Stats(0, 0, 0, 0), [], true;
    }

    /** `loadDashboard`: the three fetches run together; a failed one reads as an empty list. */
    method LoadDashboard(usersRes: Fetch<User>, resourcesRes: Fetch<Resource>, bookingsRes: Fetch<Booking>)
      modifies this
      ensures stats == ComputeStats(DataOrEmpty(usersRes), DataOrEmpty(resourcesRes), DataOrEmpty(bookingsRes))
      ensures recentBookings == RecentBookings(DataOrEmpty(bookingsRes))
      ensures !loading
    {
      var users := DataOrEmpty(usersRes);
      var resources := DataOrEmpty(resourcesRes);
      var bookings := DataOrEmpty(bookingsRes);
      stats := Stats(|users|, |resources|, |bookings|, PendingCount(bookings));
      recentBookings := Reverse(TakeLast(bookings, 5));
      loading := false;
    }
  }
}

=== FILE: entities.dfy ===
/**
 * The persisted entities of the booking backend and their enumerations.
 * Java's nullable fields are `Option`s where some code path can leave them
 * null; identifiers are the database-generated keys.
 */
module Entities {
  import opened Results

  datatype Role = ADMIN | STAFF | STUDENT

  datatype UserStatus = ACTIVE | INACTIVE

  datatype ResourceType = CLASSROOM | LAB | EVENT_HALL

  datatype ResourceStatus = AVAILABLE | UNAVAILABLE

  datatype BookingStatus = PENDING | APPROVED | REJECTED

  /** `java.time.LocalDate`: compared field by field. */
  datatype LocalDate = LocalDate(year: int, month: int, day: int)

  /**
   * A user row. `createdAt` is the clock reading taken when the row was
   * created, kept as an opaque number.
   */
  datatype User = User(
    id: int,
    name: Option<string>,
    email: Option<string>,
    phone: Option<string>,
    role: Role,
    status: Option<UserStatus>,
    createdAt: Option<int>)

  /** A bookable room, lab or hall. A capacity that failed to parse arrives as null. */
  datatype Resource = Resource(
    id: int,
    name: string,
    resourceType: ResourceType,
    capacity: Option<int>,
    status: Option<ResourceStatus>)

  /** A stored booking; the user and resource are referenced by key, as by a foreign key. */
  datatype Booking = Booking(
    id: int,
    userId: int,
    resourceId: int,
    bookingDate: LocalDate,
    timeSlot: string,
    status: BookingStatus)

  /** The body of a booking request: the client may send a status, which is overridden. */
  datatype BookingRequest = BookingRequest(
    bookingDate: LocalDate,
    timeSlot: string,
    status: Option<BookingStatus>)

  /** The exceptions the services throw, with their messages. */
  datatype Failure =
    | RuntimeException(message: string)
    | ResourceNotFoundException(message: string)
}

=== FILE: resource_editor.dfy ===
/**
 * The older resource list component: one form that either creates a
 * resource or, once a row's Edit button has loaded it, updates that row.
 * Which mode the form is in is `editingId`; the handlers move between the
 * two modes.
 */
module ResourceEditor {
  import opened Results
  import opened Entities
  import opened Text
  import opened Api

  /** `newResource`: the form fields as the inputs hold them. */
  datatype EditForm = EditForm(name: string, resourceType: ResourceType, capacity: string, status: Option<ResourceStatus>)

  /** The form the component starts with and returns to. */
  const DefaultForm := EditForm("", CLASSROOM, "", Some(AVAILABLE))

  /** The body sent to create or update: the form with its capacity parsed (`NaN` is sent as null). */
  datatype ResourcePayload = ResourcePayload(name: string, resourceType: ResourceType, capacity: Option<int>, status: Option<ResourceStatus>)

  /** The remote call a submit makes. */
  datatype SaveCall = UpdateCall(id: int, payload: ResourcePayload) | CreateCall(payload: ResourcePayload)

  /** One `handleInputChange` event: the input's name picks the field. */
  datatype FieldChange =
    | SetName(name: string)
    | SetType(resourceType: ResourceType)
    | SetCapacity(capacity: string)
    | SetStatus(status: ResourceStatus)

  /** `{ ...newResource, capacity: parseInt(newResource.capacity) }`. */
  function PayloadOf(form: EditForm): (p: ResourcePayload)
    ensures p.name == form.name && p.resourceType == form.resourceType && p.status == form.status
    ensures forall n: int :: form.capacity == IntToString(n) ==> p.capacity == Some(n)
  {
    forall n: int | form.capacity == IntToString(n) ensures ParseInt(form.capacity) == Some(n) {
      ParseIntOfIntToString(n);
    }
    ResourcePayload(form.name, form.resourceType, ParseInt(form.capacity), form.status)
  }

  /** The form `handleEdit` loads for a resource with a capacity. */
  function FormOf(r: Resource): (f: EditForm)
    requires r.capacity.Some?
    ensures f.name == r.name && f.resourceType == r.resourceType && f.status == r.status
    ensures ParseInt(f.capacity) == r.capacity
  {
    ParseIntOfIntToString(r.capacity.value);
    EditForm(r.name, r.resourceType, IntToString(r.capacity.value), r.status)
  }

  /** Loading a resource and saving the untouched form sends back exactly the resource's fields. */
  lemma UntouchedEditWritesBack(r: Resource)
    requires r.capacity.Some?
    ensures PayloadOf(FormOf(r)) == ResourcePayload(r.name, r.resourceType, r.capacity, r.status)
  {
  }

  /** `if (editingId)`: null and 0 are falsy. */
  predicate IsEditing(editingId: Option<int>)
  {
    editingId.Some? && editingId.value != 0
  }

  class ResourceEditorScreen {
    var resources: seq<Resource>
    var form: EditForm
    var editingId: Option<int>
    var loading: bool
    var error: string

    constructor ()
      ensures resources == [] && form == DefaultForm && editingId == None && !loading && error == ""
      ensures !IsEditing(editingId)
    {
      resources, form, editingId, loading, error := [], DefaultForm, None, false, "";
    }

    /** `fetchResources`: a failure sets the error line and keeps the list. */
    method FetchResources(res: Fetch<Resource>)
      modifies this`resources, this`loading, this`error
      ensures res.Fetched? ==> resources == res.data && error == old(error)
      ensures res.FetchFailed? ==> resources == old(resources) && error == "Failed to fetch resources"
      ensures !loading
    {
      loading := true;
      if res.Fetched? {
        resources := res.data;
      } else {
        error := "Failed to fetch resources";
      }
      loading := false;
    }

    /** `handleInputChange`: the named field takes the new value, the others stay. */
    method HandleInputChange(change: FieldChange)
      modifies this`form
      ensures form.name == (if change.SetName? then change.name else old(form).name)
      ensures form.resourceType == (if change.SetType? then change.resourceType else old(form).resourceType)
      ensures form.capacity == (if change.SetCapacity? then change.capacity else old(form).capacity)
      ensures form.status == (if change.SetStatus? then Some(change.status) else old(form).status)
    {
      match change
      case SetName(name) => form := form.(name := name);
      case SetType(t) => form := form.(resourceType := t);
      case SetCapacity(c) => form := form.(capacity := c);
      case SetStatus(s) => form := form.(status := Some(s));
    }

    /**
     * `handleEdit(resource)`: the form switches to editing that row. The id is
     * set first; a resource without a capacity then throws on `toString`
     * (`crashed`), leaving the old form in place.
     */
    method HandleEdit(r: Resource) returns (crashed: bool)
      modifies this`editingId, this`form
      ensures editingId == Some(r.id)
      ensures crashed <==> r.capacity.None?
      ensures crashed ==> form == old(form)
      ensures !crashed ==> form == FormOf(r)
    {
      editingId := Some(r.id);
      if r.capacity.None? {
        return true;
      }
      crashed := false;
      form := EditForm(r.name, r.resourceType, IntToString(r.capacity.value), r.status);
    }

    /**
     * `handleSubmit`: an update of the row being edited, or a create.
     * `succeeds` is the outcome of that call. Success leaves create mode and
     * the default form; failure keeps everything and sets the error line.
     */
    method HandleSubmit(succeeds: bool) returns (call: SaveCall)
      modifies this`editingId, this`form, this`error
      ensures IsEditing(old(editingId)) ==> call == UpdateCall(old(editingId).value, PayloadOf(old(form)))
      ensures !IsEditing(old(editingId)) ==> call == CreateCall(PayloadOf(old(form)))
      ensures succeeds ==>
        && form == DefaultForm && error == ""
        && editingId == (if IsEditing(old(editingId)) then None else old(editingId))
        && !IsEditing(editingId)
      ensures !succeeds ==>
        form == old(form) && editingId == old(editingId) && error == "Failed to save resource"
    {
      var payload := ResourcePayload(form.name, form.resourceType, ParseInt(form.capacity), form.status);
      if editingId.Some? && editingId.value != 0 {
        call := UpdateCall(editingId.value, payload);
        if succeeds {
          editingId := None;
        }
      } else {
        call := CreateCall(payload);
      }
      if succeeds {
        form := EditForm("", CLASSROOM, "", Some(AVAILABLE));
        error := "";
      } else {
        error := "Failed to save resource";
      }
    }

    /** `handleDelete(id)`: nothing happens unless the confirmation dialog is accepted. */
    method HandleDelete(id: int, confirmed: bool, deleteSucceeds: bool) returns (call: Option<int>)
      modifies this`error
      ensures call.Some? <==> confirmed
      ensures confirmed ==> call == Some(id)
      ensures confirmed && !deleteSucceeds ==> error == "Failed to delete resource"
      ensures !(confirmed && !deleteSucceeds) ==> error == old(error)
    {
      call := None;
      if confirmed {
        call := Some(id);
        if !deleteSucceeds {
          error := "Failed to delete resource";
        }
      }
    }

    /** `handleCancel`: back to create mode with the default form. */
    method HandleCancel()
      modifies this`editingId, this`form
      ensures editingId == None && form == DefaultForm && !IsEditing(editingId)
    {
      editingId := None;
      form := EditForm("", CLASSROOM, "", Some(AVAILABLE));
    }
  }

  /**
   * A client run: editing a resource with a capacity and saving it without
   * touching the form sends an update of that row with its own fields, and
   * on success returns to create mode.
   */
  method EditThenSave(screen: ResourceEditorScreen, r: Resource) returns (call: SaveCall)
    requires r.capacity.Some? && r.id != 0
    modifies screen
    ensures call == UpdateCall(r.id, ResourcePayload(r.name, r.resourceType, r.capacity, r.status))
    ensures screen.editingId == None && screen.form == DefaultForm
  {
    var _ := screen.HandleEdit(r);
    UntouchedEditWritesBack(r);
    call := screen.HandleSubmit(true);
  }
}

=== FILE: resource_service.dfy ===
/** The resource service: create with a forced status, list, update, delete. */
module ResourceService {
  import opened Results
  import opened Entities
  import opened Store

  /** `createResource`: the row is saved as AVAILABLE whatever status it carried. */
  method CreateResource(db: Database, resource: Resource) returns (saved: Resource)
    requires db.Valid()
    modifies db
    ensures db.Valid()
    ensures saved.status == Some(AVAILABLE)
    ensures saved.name == resource.name && saved.resourceType == resource.resourceType
    ensures saved.capacity == resource.capacity
    ensures saved.id !in old(db.resources)
    ensures db.resources == old(db.resources)[saved.id := saved]
    ensures db.users == old(db.users) && db.bookings == old(db.bookings)
    ensures db.nextResourceId == old(db.nextResourceId) + 1
    ensures db.nextUserId == old(db.nextUserId) && db.nextBookingId == old(db.nextBookingId)
  {
    var r := resource.(status := Some(AVAILABLE));
    saved := db.InsertResource(r);
  }

  /** `getAllResources`. */
  method GetAllResources(db: Database) returns (r: map<int, Resource>)
    ensures r == db.resources
  {
    r := db.resources;
  }

  /** `updateResource(id, updatedResource)`: copies name, type, capacity and status; keeps the key. */
  method UpdateResource(db: Database, id: int, updated: Resource) returns (r: Result<Resource, Failure>)
    requires db.Valid()
    modifies db
    ensures db.Valid()
    ensures id !in old(db.resources) ==>
      r == Failure(ResourceNotFoundException("Resource not found")) && unchanged(db)
    ensures id in old(db.resources) ==>
      && r == Success(Resource(id, updated.name, updated.resourceType, updated.capacity, updated.status))
      && db.resources == old(db.resources)[id := r.value]
      && db.users == old(db.users) && db.bookings == old(db.bookings)
    ensures db.nextUserId == old(db.nextUserId) && db.nextResourceId == old(db.nextResourceId)
    ensures db.nextBookingId == old(db.nextBookingId)
  {
    if id !in db.resources {
      return Failure(ResourceNotFoundException("Resource not found"));
    }
    var existing := db.resources[id];
    existing := existing.(name := updated.name);
    existing := existing.(resourceType := updated.resourceType);
    existing := existing.(capacity := updated.capacity);
    existing := existing.(status := updated.status);
    db.resources := db.resources[id := existing];
    r := Success(existing);
  }

  /** `deleteResource(id)`. */
  method DeleteResource(db: Database, id: int) returns (r: Result<(), Failure>)
    requires db.Valid()
    modifies db
    ensures db.Valid()
    ensures id !in old(db.resources) ==>
      r == Failure(ResourceNotFoundException("Resource not found")) && unchanged(db)
    ensures id in old(db.resources) ==>
      && r == Success(())
      && id !in db.resources
      && db.resources == old(db.resources) - {id}
      && db.users == old(db.users) && db.bookings == old(db.bookings)
    ensures db.nextUserId == old(db.nextUserId) && db.nextResourceId == old(db.nextResourceId)
    ensures db.nextBookingId == old(db.nextBookingId)
  {
    if id !in db.resources {
      return Failure(ResourceNotFoundException("Resource not found"));
    }
    db.resources := db.resources - {id};
    r := Success(());
  }
}

=== FILE: resources_page.dfy ===
/**
 * The resources screen: the search-and-type filter over the resource list,
 * the summary counters, the add-resource form with its guard, integer
 * parse and reset, and the list fetch and delete handlers.
 */
module ResourcesPage {
  import opened Results
  import opened Entities
  import opened Seqs
  import opened Text
  import opened Api
  import opened Toasts

  /** The type buttons: `'ALL'` or one type. */
  datatype TypeFilter = AllTypes | OnlyType(resourceType: ResourceType)

  /** The search box matches the resource's name, case-insensitively. */
  predicate MatchesSearch(r: Resource, search: string)
  {
    Includes(Lower(r.name), Lower(search))
  }

  predicate MatchesType(r: Resource, f: TypeFilter)
  {
    f.AllTypes? || r.resourceType == f.resourceType
  }

  /** `filtered`: the resources that match both the search and the type filter, in list order. */
  function FilteredResources(resources: seq<Resource>, search: string, f: TypeFilter): (r: seq<Resource>)
    ensures IsSubsequence(r, resources)
    ensures forall x :: x in r <==> x in resources && MatchesSearch(x, search) && MatchesType(x, f)
  {
    var p := (x: Resource) => MatchesSearch(x, search) && MatchesType(x, f);
    FilterIsSubsequence(resources, p);
    forall x ensures x in Filter(resources, p) <==> x in resources && p(x) {
      FilterMembership(resources, p, x);
    }
    Filter(resources, p)
  }

  /** With an empty search box and all types, the whole list is shown. */
  lemma EmptySearchShowsAll(resources: seq<Resource>)
    ensures FilteredResources(resources, "", AllTypes) == resources
  {
    forall x: Resource ensures MatchesSearch(x, "") {
      IncludesEmpty(Lower(x.name));
    }
    FilterAllPass(resources, (x: Resource) => MatchesSearch(x, "") && MatchesType(x, AllTypes));
  }

  /** A longer search term shows no more resources: what matches `search + more` matches `search`. */
  lemma {:induction false} LongerSearchNarrows(resources: seq<Resource>, search: string, more: string, f: TypeFilter)
    ensures forall x :: x in FilteredResources(resources, search + more, f) ==> x in FilteredResources(resources, search, f)
  {
    forall x | x in FilteredResources(resources, search + more, f)
      ensures x in FilteredResources(resources, search, f)
    {
      var name, needle := Lower(x.name), Lower(search + more);
      IncludesOccurs(name, needle);
      var i :| OccursAt(name, needle, i);
      assert Lower(search + more)[..|search|] == Lower(search);
      assert OccursAt(name, Lower(search), i);
      IncludesOccurs(name, Lower(search));
    }
  }

  /** The counter of one type: `resources.filter(r => r.type === type).length`. */
  function TypeCount(resources: seq<Resource>, t: ResourceType): nat
  {
    Count(resources, (x: Resource) => x.resourceType == t)
  }

  /** The Available counter. */
  function AvailableCount(resources: seq<Resource>): (n: nat)
    ensures n <= |resources|
  {
    Count(resources, (x: Resource) => x.status == Some(AVAILABLE))
  }

  /** Classrooms, Labs and Event Halls add up to the Total counter. */
  lemma {:induction false} TypeCountsPartition(resources: seq<Resource>)
    ensures TypeCount(resources, CLASSROOM) + TypeCount(resources, LAB) + TypeCount(resources, EVENT_HALL) == |resources|
  {
    if resources != [] {
      TypeCountsPartition(resources[1..]);
    }
  }

  /** A type counter is the number of rows its type button shows with an empty search. */
  lemma TypeCountMatchesTypeTab(resources: seq<Resource>, t: ResourceType)
    ensures |FilteredResources(resources, "", OnlyType(t))| == TypeCount(resources, t)
  {
    forall x: Resource ensures MatchesSearch(x, "") {
      IncludesEmpty(Lower(x.name));
    }
    FilterAgree(resources, (x: Resource) => MatchesSearch(x, "") && MatchesType(x, OnlyType(t)),
      (x: Resource) => x.resourceType == t);
  }

  /** The add-resource form; capacity is the text of the number field. */
  datatype ResourceForm = ResourceForm(name: string, resourceType: ResourceType, capacity: string)

  /** The body `createResourceAPI` receives; a capacity that is not a number is `NaN`, sent as null. */
  datatype CreatePayload = CreatePayload(name: string, resourceType: ResourceType, capacity: Option<int>)

  const EmptyForm := ResourceForm("", CLASSROOM, "")

  /** `{ ...form, capacity: parseInt(form.capacity) }`. */
  function PayloadOf(form: ResourceForm): (p: CreatePayload)
    ensures p.name == form.name && p.resourceType == form.resourceType
    ensures forall n: int :: form.capacity == IntToString(n) ==> p.capacity == Some(n)
  {
    forall n: int | form.capacity == IntToString(n) ensures ParseInt(form.capacity) == Some(n) {
      ParseIntOfIntToString(n);
    }
    CreatePayload(form.name, form.resourceType, ParseInt(form.capacity))
  }

  class ResourcesScreen {
    var resources: seq<Resource>
    var loading: bool
    var showModal: bool
    var search: string
    var filterType: TypeFilter
    var form: ResourceForm

    constructor ()
      ensures resources == [] && loading && !showModal && search == "" && filterType == AllTypes && form == EmptyForm
    {
      resources, loading, showModal := [], true, false;
      search, filterType, form := "", AllTypes, EmptyForm;
    }

    /** The cards on screen. */
    function Filtered(): seq<Resource>
      reads this
    {
      FilteredResources(resources, search, filterType)
    }

    /** `fetchResources`: a failed fetch keeps the list and shows an error toast. */
    method FetchResources(res: Fetch<Resource>) returns (notice: Option<Notice>)
      modifies this`resources, this`loading
      ensures res.Fetched? ==> resources == res.data && notice == None
      ensures res.FetchFailed? ==> resources == old(resources) && notice == Some(Notice("Failed to fetch resources", Error))
      ensures !loading
    {
      loading := true;
      notice := None;
      if res.Fetched? {
        resources := res.data;
      } else {
        notice := Some(Notice("Failed to fetch resources", Error));
      }
      loading := false;
    }

    /**
     * `handleAdd`. `createSucceeds` is the outcome of the create call, when
     * one is made; `call` is the body sent and `notice` the toast shown.
     */
    method HandleAdd(createSucceeds: bool) returns (call: Option<CreatePayload>, notice: Notice)
      modifies this`form, this`showModal
      ensures call.Some? <==> old(form).name != "" && old(form).capacity != ""
      ensures call.None? ==>
        notice == Notice("Please fill all fields", Warning) && form == old(form) && showModal == old(showModal)
      ensures call.Some? ==> call.value == PayloadOf(old(form))
      ensures call.Some? && createSucceeds ==>
        notice == Notice("Resource added successfully!", ToastType.Success) && form == EmptyForm && !showModal
      ensures call.Some? && !createSucceeds ==>
        notice == Notice("Error adding resource", Error) && form == old(form) && showModal == old(showModal)
    {
      if form.name == "" || form.capacity == "" {
        return None, Notice("Please fill all fields", Warning);
      }
      call := Some(CreatePayload(form.name, form.resourceType, ParseInt(form.capacity)));
      if createSucceeds {
        notice := Notice("Resource added successfully!", ToastType.Success);
        form := ResourceForm("", CLASSROOM, "");
        showModal := false;
      } else {
        notice := Notice("Error adding resource", Error);
      }
    }

    /** `handleDelete(id, name)`: nothing happens unless the confirmation dialog is accepted. */
    method HandleDelete(id: int, confirmed: bool, deleteSucceeds: bool) returns (call: Option<int>, notice: Option<Notice>)
      ensures !confirmed ==> call == None && notice == None
      ensures confirmed && deleteSucceeds ==> call == Some(id) && notice == Some(Notice("Resource deleted", ToastType.Success))
      ensures confirmed && !deleteSucceeds ==> call == Some(id) && notice == Some(Notice("Error deleting resource", Error))
    {
      if !confirmed {
        return None, None;
      }
      call := Some(id);
      if deleteSucceeds {
        notice := Some(Notice("Resource deleted", ToastType.Success));
      } else {
        notice := Some(Notice("Error deleting resource", Error));
      }
    }
  }
}

=== FILE: seqs.dfy ===
/** Option and Result, the shapes used for nullable values and thrown errors. */
module Results {
  datatype Option<+T> = None | Some(value: T)

  datatype Result<+T, +E> = Success(value: T) | Failure(error: E)
}

/**
 * Array `filter` as the screens use it, and the facts about it that the
 * screens' filters and counters rely on.
 */
module Seqs {

  /** JavaScript `Array.prototype.filter`: keep the elements satisfying `p`, in order. */
  function Filter<T>(s: seq<T>, p: T -> bool): (r: seq<T>)
    ensures |r| <= |s|
    ensures forall x :: x in r ==> x in s && p(x)
  {
    if s == [] then []
    else if p(s[0]) then [s[0]] + Filter(s[1..], p)
    else Filter(s[1..], p)
  }

  /** `r` can be obtained from `s` by deleting elements: order is preserved. */
  predicate IsSubsequence<T(==)>(r: seq<T>, s: seq<T>)
  {
    if r == [] then true
    else if s == [] then false
    else if r[0] == s[0] then IsSubsequence(r[1..], s[1..])
    else IsSubsequence(r, s[1..])
  }

  /** An element of `s` satisfying `p` is kept. */
  lemma {:induction false} FilterKeeps<T>(s: seq<T>, p: T -> bool, x: T)
    requires x in s && p(x)
    ensures x in Filter(s, p)
  {
    if s[0] != x {
      FilterKeeps(s[1..], p, x);
    }
  }

  /** `x` is in the filtered list exactly when it is in the list and satisfies `p`. */
  lemma FilterMembership<T>(s: seq<T>, p: T -> bool, x: T)
    ensures x in Filter(s, p) <==> x in s && p(x)
  {
    if x in s && p(x) {
      FilterKeeps(s, p, x);
    }
  }

  /** `filter` never reorders: its result is a subsequence of its input. */
  lemma {:induction false} FilterIsSubsequence<T>(s: seq<T>, p: T -> bool)
    ensures IsSubsequence(Filter(s, p), s)
  {
    if s != [] {
      FilterIsSubsequence(s[1..], p);
      if !p(s[0]) {
        SubsequenceOfTail(Filter(s[1..], p), s);
      }
    }
  }

  /** Dropping the head of the larger list is harmless when the smaller one is a subsequence of its tail. */
  lemma {:induction false} SubsequenceOfTail<T>(r: seq<T>, s: seq<T>)
    requires s != [] && IsSubsequence(r, s[1..])
    ensures IsSubsequence(r, s)
    decreases |s|, 1
  {
    if r != [] && r[0] == s[0] {
      SubsequenceDropHead(r, s[1..]);
    }
  }

  /** Dropping the head of the smaller list keeps it a subsequence. */
  lemma {:induction false} SubsequenceDropHead<T>(r: seq<T>, t: seq<T>)
    requires r != [] && IsSubsequence(r, t)
    ensures IsSubsequence(r[1..], t)
    decreases |t|, 2
  {
    if r[0] == t[0] {
      SubsequenceOfTail(r[1..], t);
    } else {
      SubsequenceDropHead(r, t[1..]);
      SubsequenceOfTail(r[1..], t);
    }
  }

  /** When every element passes, `filter` returns the list itself. */
  lemma {:induction false} FilterAllPass<T>(s: seq<T>, p: T -> bool)
    requires forall i :: 0 <= i < |s| ==> p(s[i])
    ensures Filter(s, p) == s
  {
    if s != [] {
      FilterAllPass(s[1..], p);
    }
  }

  /** `filter` distributes over concatenation. */
  lemma {:induction false} FilterConcat<T>(a: seq<T>, b: seq<T>, p: T -> bool)
    ensures Filter(a + b, p) == Filter(a, p) + Filter(b, p)
  {
    if a == [] {
      assert a + b == b;
    } else {
      assert (a + b)[0] == a[0];
      assert (a + b)[1..] == a[1..] + b;
      FilterConcat(a[1..], b, p);
    }
  }

  /** Two predicates that agree on every element of `s` filter it alike. */
  lemma {:induction false} FilterAgree<T>(s: seq<T>, p: T -> bool, q: T -> bool)
    requires forall i :: 0 <= i < |s| ==> p(s[i]) == q(s[i])
    ensures Filter(s, p) == Filter(s, q)
  {
    if s != [] {
      FilterAgree(s[1..], p, q);
    }
  }

  /** Filtering twice with the same predicate is filtering once. */
  lemma {:induction false} FilterIdempotent<T>(s: seq<T>, p: T -> bool)
    ensures Filter(Filter(s, p), p) == Filter(s, p)
  {
    if s != [] {
      FilterIdempotent(s[1..], p);
    }
  }

  /** `s.filter(p).length`. */
  function Count<T>(s: seq<T>, p: T -> bool): (n: nat)
    ensures n <= |s|
  {
    |Filter(s, p)|
  }

  /** `s.reverse()`: the same elements, last first. */
  function Reverse<T>(s: seq<T>): (r: seq<T>)
    ensures |r| == |s|
    ensures forall i :: 0 <= i < |s| ==> r[i] == s[|s| - 1 - i]
  {
    if s == [] then [] else Reverse(s[1..]) + [s[0]]
  }

  /** `s.slice(-k)` for `k > 0`: the last `k` elements, or all of `s` when it is shorter. */
  function TakeLast<T>(s: seq<T>, k: nat): (r: seq<T>)
    requires k > 0
    ensures |r| == if |s| < k then |s| else k
    ensures forall i :: 0 <= i < |r| ==> r[i] == s[|s| - |r| + i]
  {
    if |s| < k then s else s[|s| - k..]
  }
}

=== FILE: store.dfy ===
/**
 * The database behind the three repositories: one table per entity, each a
 * map from generated key to row, and one identity counter per table.
 */
module Store {
  import opened Entities

  class Database {
    var users: map<int, User>
    var resources: map<int, Resource>
    var bookings: map<int, Booking>
    var nextUserId: int
    var nextResourceId: int
    var nextBookingId: int

    /** Every row sits under its own key, and keys are below the table's counter. */
    ghost predicate Valid()
      reads this
    {
      && 1 <= nextUserId && 1 <= nextResourceId && 1 <= nextBookingId
      && (forall id :: id in users ==> users[id].id == id && 1 <= id < nextUserId)
      && (forall id :: id in resources ==> resources[id].id == id && 1 <= id < nextResourceId)
      && (forall id :: id in bookings ==> bookings[id].id == id && 1 <= id < nextBookingId)
    }

    constructor ()
      ensures Valid()
      ensures users == map[] && resources == map[] && bookings == map[]
      ensures nextUserId == 1 && nextResourceId == 1 && nextBookingId == 1
    {
      users, resources, bookings := map[], map[], map[];
      nextUserId, nextResourceId, nextBookingId := 1, 1, 1;
    }

    /** `save` of a new user: the row gets the next generated key. */
    method InsertUser(user: User) returns (saved: User)
      requires Valid()
      modifies this
      ensures Valid()
      ensures saved == user.(id := old(nextUserId)) && saved.id !in old(users)
      ensures users == old(users)[saved.id := saved]
      ensures resources == old(resources) && bookings == old(bookings)
      ensures nextUserId == old(nextUserId) + 1
      ensures nextResourceId == old(nextResourceId) && nextBookingId == old(nextBookingId)
    {
      saved := user.(id := nextUserId);
      users := users[saved.id := saved];
      nextUserId := nextUserId + 1;
    }

    /** `save` of a new resource. */
    method InsertResource(resource: Resource) returns (saved: Resource)
      requires Valid()
      modifies this
      ensures Valid()
      ensures saved == resource.(id := old(nextResourceId)) && saved.id !in old(resources)
      ensures resources == old(resources)[saved.id := saved]
      ensures users == old(users) && bookings == old(bookings)
      ensures nextResourceId == old(nextResourceId) + 1
      ensures nextUserId == old(nextUserId) && nextBookingId == old(nextBookingId)
    {
      saved := resource.(id := nextResourceId);
      resources := resources[saved.id := saved];
      nextResourceId := nextResourceId + 1;
    }

    /** `save` of a new booking. */
    method InsertBooking(booking: Booking) returns (saved: Booking)
      requires Valid()
      modifies this
      ensures Valid()
      ensures saved == booking.(id := old(nextBookingId)) && saved.id !in old(bookings)
      ensures bookings == old(bookings)[saved.id := saved]
      ensures users == old(users) && resources == old(resources)
      ensures nextBookingId == old(nextBookingId) + 1
      ensures nextUserId == old(nextUserId) && nextResourceId == old(nextResourceId)
    {
      saved := booking.(id := nextBookingId);
      bookings := bookings[saved.id := saved];
      nextBookingId := nextBookingId + 1;
    }
  }
}

=== FILE: text.dfy ===
/**
 * The string operations the screens call: `toLowerCase`, `includes`,
 * `String(n)`, `padStart(2, '0')` and `parseInt`, restricted to ASCII
 * letters and decimal digits.
 */
module Text {
  import opened Results

  /** ASCII `toLowerCase` of one character. */
  function LowerChar(c: char): char
  {
    if 'A' <= c <= 'Z' then (c as int - 'A' as int + 'a' as int) as char else c
  }

  /** ASCII `toLowerCase`. */
  function Lower(s: string): (r: string)
    ensures |r| == |s|
    ensures forall i :: 0 <= i < |s| ==> r[i] == LowerChar(s[i])
  {
    if s == [] then [] else [LowerChar(s[0])] + Lower(s[1..])
  }

  /** Lower-casing a word of capital letters, letter for letter. */
  lemma LowerWord(upper: string, lower: string)
    requires |upper| == |lower|
    requires forall i :: 0 <= i < |upper| ==> 'A' <= upper[i] <= 'Z' && lower[i] as int == upper[i] as int + 32
    ensures Lower(upper) == lower
  {
  }

  predicate StartsWith(s: string, prefix: string)
  {
    |prefix| <= |s| && s[..|prefix|] == prefix
  }

  /** `s.includes(needle)`. */
  function Includes(s: string, needle: string): (r: bool)
    decreases |s|
  {
    StartsWith(s, needle) || (s != [] && Includes(s[1..], needle))
  }

  /** `needle` occurs in `s` starting at position `i`. */
  predicate OccursAt(s: string, needle: string, i: int)
  {
    0 <= i <= |s| - |needle| && s[i..i + |needle|] == needle
  }

  /** `includes` holds exactly when `needle` occurs at some position of `s`. */
  lemma {:induction false} IncludesOccurs(s: string, needle: string)
    ensures Includes(s, needle) <==> exists i :: OccursAt(s, needle, i)
    decreases |s|
  {
    if StartsWith(s, needle) {
      assert OccursAt(s, needle, 0);
    }
    if s != [] {
      IncludesOccurs(s[1..], needle);
      if Includes(s[1..], needle) {
        var i :| OccursAt(s[1..], needle, i);
        assert s[i + 1..i + 1 + |needle|] == s[1..][i..i + |needle|];
        assert OccursAt(s, needle, i + 1);
      }
      if exists i :: OccursAt(s, needle, i) {
        var i :| OccursAt(s, needle, i);
        if i > 0 {
          assert s[1..][i - 1..i - 1 + |needle|] == s[i..i + |needle|];
          assert OccursAt(s[1..], needle, i - 1);
        }
      }
    }
  }

  /** Every string includes the empty string. */
  lemma IncludesEmpty(s: string)
    ensures Includes(s, "")
  {
  }

  // ---------------------------------------------------------------- digits

  predicate IsDigit(c: char)
  {
    '0' <= c <= '9'
  }

  function DigitChar(d: nat): (c: char)
    requires d < 10
    ensures IsDigit(c) && c as int - '0' as int == d
  {
    ('0' as int + d) as char
  }

  function DigitValue(c: char): (d: nat)
    requires IsDigit(c)
    ensures d < 10 && DigitChar(d) == c
  {
    c as int - '0' as int
  }

  /** `String(n)` for a non-negative integer: decimal, no leading zeros. */
  function NatToString(n: nat): (r: string)
    ensures |r| >= 1
    ensures forall i :: 0 <= i < |r| ==> IsDigit(r[i])
    decreases n
  {
    if n < 10 then [DigitChar(n)] else NatToString(n / 10) + [DigitChar(n % 10)]
  }

  /**
   * `String(n)` for an integer below 1e21 in magnitude, the range where
   * JavaScript prints plain decimal digits.
   */
  function IntToString(n: int): string
  {
    if n < 0 then "-" + NatToString(-n) else NatToString(n)
  }

  /** The value of a string of decimal digits, most significant first. */
  function DigitsValue(s: string): (v: nat)
    requires forall i :: 0 <= i < |s| ==> IsDigit(s[i])
  {
    if s == [] then 0 else DigitsValue(s[..|s| - 1]) * 10 + DigitValue(s[|s| - 1])
  }

  /** The longest prefix of `s` made of decimal digits. */
  function DigitPrefix(s: string): (r: string)
    ensures |r| <= |s| && r == s[..|r|]
    ensures forall i :: 0 <= i < |r| ==> IsDigit(r[i])
    ensures |r| < |s| ==> !IsDigit(s[|r|])
  {
    if s == [] || !IsDigit(s[0]) then [] else [s[0]] + DigitPrefix(s[1..])
  }

  /** The value of the leading digits of `s`, `None` when there are none. */
  function LeadingDigits(s: string): Option<nat>
  {
    var d := DigitPrefix(s);
    if d == [] then None else Some(DigitsValue(d))
  }

  /**
   * `parseInt(s, 10)` on strings without leading blanks: an optional sign,
   * then the value of the leading digits; `None` (NaN) when no digit follows.
   */
  function ParseInt(s: string): Option<int>
  {
    if |s| > 0 && (s[0] == '-' || s[0] == '+') then
      match LeadingDigits(s[1..])
      case None => None
      case Some(v) => Some(if s[0] == '-' then 0 - v as int else v as int)
    else
      match LeadingDigits(s)
      case None => None
      case Some(v) => Some(v)
  }

  /**
   * `parseInt` reads back what `String(n)` wrote. In JavaScript this holds up
   * to 2^53 in magnitude, which covers every 32-bit capacity.
   */
  lemma ParseIntOfIntToString(n: int)
    ensures ParseInt(IntToString(n)) == Some(n)
  {
    var m: nat := if n < 0 then -n else n;
    DigitPrefixOfDigits(NatToString(m));
    DigitsValueOfNatToString(m);
    if n < 0 {
      assert IntToString(n)[1..] == NatToString(m);
    }
  }

  lemma {:induction false} DigitPrefixOfDigits(s: string)
    requires forall i :: 0 <= i < |s| ==> IsDigit(s[i])
    ensures DigitPrefix(s) == s
  {
    if s != [] {
      DigitPrefixOfDigits(s[1..]);
    }
  }

  lemma {:induction false} DigitsValueOfNatToString(n: nat)
    ensures DigitsValue(NatToString(n)) == n
    decreases n
  {
    var s := NatToString(n);
    if n >= 10 {
      DigitsValueOfNatToString(n / 10);
      assert s[..|s| - 1] == NatToString(n / 10);
    }
  }

  /** `s.padStart(2, '0')`. */
  function PadStart2(s: string): (r: string)
    ensures |r| == if |s| >= 2 then |s| else 2
    ensures r[|r| - |s|..] == s
    ensures forall i :: 0 <= i < |r| - |s| ==> r[i] == '0'
  {
    if |s| >= 2 then s else seq(2 - |s|, _ => '0') + s
  }

  /** `String(n).padStart(2, '0')` for `n < 100` is two digits that read back as `n`. */
  lemma TwoDigits(n: nat)
    requires n < 100
    ensures |PadStart2(NatToString(n))| == 2
    ensures forall i :: 0 <= i < 2 ==> IsDigit(PadStart2(NatToString(n))[i])
    ensures DigitsValue(PadStart2(NatToString(n))) == n
    ensures ParseInt(PadStart2(NatToString(n))) == Some(n)
  {
    var s := PadStart2(NatToString(n));
    if n < 10 {
      assert s == ['0', DigitChar(n)];
      assert s[..1] == ['0'];
      assert DigitsValue(s[..1]) == 0 by { assert s[..1][..0] == []; }
    } else {
      assert NatToString(n) == [DigitChar(n / 10), DigitChar(n % 10)];
      assert s[..1] == [DigitChar(n / 10)];
      assert DigitsValue(s[..1]) == n / 10 by { assert s[..1][..0] == []; }
    }
    DigitPrefixOfDigits(s);
  }

  /** `String(n).padStart(2, '0')` for `n < 100`: the tens digit, then the units digit. */
  lemma TwoDigitString(n: nat)
    requires n < 100
    ensures PadStart2(NatToString(n)) == [DigitChar(n / 10), DigitChar(n % 10)]
  {
    if n >= 10 {
      assert NatToString(n / 10) == [DigitChar(n / 10)];
    }
  }
}

=== FILE: toasts.dfy ===
/**
 * The toast notification list of the shared UI kit: a module-wide id
 * counter, a list that grows at the end and shrinks by id, and the global
 * `toast` entry point that only works once a hook has registered itself.
 * Timers are not modelled as time: an expiring timer is the explicit step
 * `TimerFires`.
 */
module Toasts {
  import opened Seqs

  datatype ToastType = Info | Success | Warning | Error

  /** A call `addToast(message, type)` a screen makes. */
  datatype Notice = Notice(message: string, toastType: ToastType)

  datatype Toast = Toast(id: int, message: string, toastType: ToastType, duration: int)

  /** The default type and duration of `addToast` and `toast`. */
  const DefaultType: ToastType := Info
  const DefaultDuration: int := 4000

  /** `prev.filter(t => t.id !== id)`. */
  function Without(toasts: seq<Toast>, id: int): seq<Toast>
  {
    Filter(toasts, (t: Toast) => t.id != id)
  }

  /** No toast in the list carries `id`. */
  predicate Absent(toasts: seq<Toast>, id: int)
  {
    forall i :: 0 <= i < |toasts| ==> toasts[i].id != id
  }

  /** Removal drops every toast with the id, keeps every other one, and keeps their order. */
  lemma WithoutSpec(toasts: seq<Toast>, id: int)
    ensures Absent(Without(toasts, id), id)
    ensures forall t :: t in toasts && t.id != id ==> t in Without(toasts, id)
    ensures IsSubsequence(Without(toasts, id), toasts)
  {
    var r := Without(toasts, id);
    forall i | 0 <= i < |r| ensures r[i].id != id {
      assert r[i] in r;
    }
    forall t | t in toasts && t.id != id ensures t in r {
      FilterMembership(toasts, (t: Toast) => t.id != id, t);
    }
    FilterIsSubsequence(toasts, (t: Toast) => t.id != id);
  }

  /** Removing an id that is not in the list changes nothing. */
  lemma WithoutAbsent(toasts: seq<Toast>, id: int)
    requires Absent(toasts, id)
    ensures Without(toasts, id) == toasts
  {
    FilterAllPass(toasts, (t: Toast) => t.id != id);
  }

  /** Removing twice is removing once. */
  lemma WithoutIdempotent(toasts: seq<Toast>, id: int)
    ensures Without(Without(toasts, id), id) == Without(toasts, id)
  {
    FilterIdempotent(toasts, (t: Toast) => t.id != id);
  }

  /** Adding a toast under a fresh id and removing that id gives back the old list. */
  lemma AddThenRemove(toasts: seq<Toast>, t: Toast)
    requires Absent(toasts, t.id)
    ensures Without(toasts + [t], t.id) == toasts
  {
    FilterConcat(toasts, [t], (u: Toast) => u.id != t.id);
    WithoutAbsent(toasts, t.id);
    assert Filter([t], (u: Toast) => u.id != t.id) == [];
  }

  class ToastCenter {
    /** The module-level `toastId` counter. */
    var toastId: int
    /** The `toasts` state of the hook. */
    var toasts: seq<Toast>
    /** The ids whose auto-removal timer is pending. */
    var timers: set<int>
    /** `addToastFn` has been set by a hook. */
    var registered: bool
    /** Every id `addToast` has returned so far. */
    ghost var issued: set<int>

    ghost predicate Valid()
      reads this
    {
      && 0 <= toastId
      && (forall j :: j in issued ==> 1 <= j <= toastId)
      && (forall i :: 0 <= i < |toasts| ==> toasts[i].id in issued)
      && (forall j :: j in timers ==> j in issued)
    }

    constructor ()
      ensures Valid()
      ensures toastId == 0 && toasts == [] && timers == {} && !registered && issued == {}
    {
      toastId, toasts, timers, registered := 0, [], {}, false;
      issued := {};
    }

    /** `useToast()` rendering: it publishes its `addToast` as `addToastFn`. */
    method UseToast()
      requires Valid()
      modifies this
      ensures Valid() && registered
      ensures toastId == old(toastId) && toasts == old(toasts) && timers == old(timers) && issued == old(issued)
    {
      registered := true;
    }

    /** `addToast(message, type = 'info', duration = 4000)`. */
    method AddToast(message: string, toastType: ToastType := DefaultType, duration: int := DefaultDuration)
      returns (id: int)
      requires Valid()
      modifies this
      ensures Valid()
      ensures forall j :: j in old(issued) ==> j < id
      ensures id == old(toastId) + 1 && toastId == id && issued == old(issued) + {id}
      ensures toasts == old(toasts) + [Toast(id, message, toastType, duration)]
      ensures timers == if duration > 0 then old(timers) + {id} else old(timers)
      ensures registered == old(registered)
    {
      toastId := toastId + 1;
      id := toastId;
      issued := issued + {id};
      toasts := toasts + [Toast(id, message, toastType, duration)];
      if duration > 0 {
        timers := timers + {id};
      }
    }

    /** `removeToast(id)`. */
    method RemoveToast(id: int)
      requires Valid()
      modifies this
      ensures Valid()
      ensures toasts == Without(old(toasts), id)
      ensures toastId == old(toastId) && timers == old(timers) && issued == old(issued)
      ensures registered == old(registered)
    {
      WithoutSpec(toasts, id);
      toasts := Without(toasts, id);
      forall i | 0 <= i < |toasts| ensures toasts[i].id in issued {
        FilterMembership(old(toasts), (t: Toast) => t.id != id, toasts[i]);
        assert toasts[i] in old(toasts);
      }
    }

    /** The auto-removal timer of toast `id` fires after its duration. */
    method TimerFires(id: int)
      requires Valid() && id in timers
      modifies this
      ensures Valid()
      ensures toasts == Without(old(toasts), id) && timers == old(timers) - {id}
      ensures toastId == old(toastId) && issued == old(issued) && registered == old(registered)
    {
      timers := timers - {id};
      RemoveToast(id);
    }

    /** `toast(message, type, duration)`: forwards to the registered `addToast`, or does nothing. */
    method ShowToast(message: string, toastType: ToastType := DefaultType, duration: int := DefaultDuration)
      requires Valid()
      modifies this
      ensures Valid()
      ensures registered == old(registered)
      ensures !old(registered) ==>
        toasts == old(toasts) && toastId == old(toastId) && timers == old(timers) && issued == old(issued)
      ensures old(registered) ==>
        && toastId == old(toastId) + 1
        && issued == old(issued) + {toastId}
        && toasts == old(toasts) + [Toast(toastId, message, toastType, duration)]
        && timers == if duration > 0 then old(timers) + {toastId} else old(timers)
    {
      if registered {
        var _ := AddToast(message, toastType, duration);
      }
    }
  }

  /** A client run: the id `addToast` returns removes exactly that toast again. */
  method AddThenRemoveRestores(c: ToastCenter, message: string)
    requires c.Valid()
    modifies c
    ensures c.Valid() && c.toasts == old(c.toasts)
  {
    var id := c.AddToast(message);
    assert c.toasts == old(c.toasts) + [Toast(id, message, Info, 4000)];
    assert Absent(old(c.toasts), id) by {
      forall i | 0 <= i < |old(c.toasts)| ensures old(c.toasts)[i].id != id {
        assert old(c.toasts)[i].id in old(c.issued);
      }
    }
    AddThenRemove(old(c.toasts), Toast(id, message, Info, 4000));
    c.RemoveToast(id);
  }
}

=== FILE: user_management_page.dfy ===
/**
 * The user management screen: the search-and-role filter over the user
 * list, the per-role counters, the add-user form with its guard and reset,
 * and the list fetch and delete handlers.
 */
module UserManagementPage {
  import opened Results
  import opened Entities
  import opened Seqs
  import opened Text
  import opened Api
  import opened Toasts

  /** The role buttons: `'ALL'` or one role. */
  datatype RoleFilter = AllRoles | OnlyRole(role: Role)

  /** The search box matches the user's name or email, case-insensitively; a missing field never matches. */
  predicate MatchesSearch(u: User, search: string)
  {
    || (u.name.Some? && Includes(Lower(u.name.value), Lower(search)))
    || (u.email.Some? && Includes(Lower(u.email.value), Lower(search)))
  }

  predicate MatchesRole(u: User, f: RoleFilter)
  {
    f.AllRoles? || u.role == f.role
  }

  /** `filtered`: the users that match both the search and the role filter, in list order. */
  function FilteredUsers(users: seq<User>, search: string, f: RoleFilter): (r: seq<User>)
    ensures IsSubsequence(r, users)
    ensures forall u :: u in r <==> u in users && MatchesSearch(u, search) && MatchesRole(u, f)
  {
    var p := (u: User) => MatchesSearch(u, search) && MatchesRole(u, f);
    FilterIsSubsequence(users, p);
    forall u ensures u in Filter(users, p) <==> u in users && p(u) {
      FilterMembership(users, p, u);
    }
    Filter(users, p)
  }

  /**
   * With an empty search box and all roles, exactly the users that have a
   * name or an email are listed, and when every user has one the list is
   * shown whole.
   */
  lemma EmptySearchKeepsNamedUsers(users: seq<User>)
    ensures forall u :: u in FilteredUsers(users, "", AllRoles) <==> u in users && (u.name.Some? || u.email.Some?)
    ensures (forall i :: 0 <= i < |users| ==> users[i].name.Some? || users[i].email.Some?) ==>
      FilteredUsers(users, "", AllRoles) == users
  {
    forall u: User | u.name.Some? ensures Includes(Lower(u.name.value), Lower("")) {
      IncludesEmpty(Lower(u.name.value));
    }
    forall u: User | u.email.Some? ensures Includes(Lower(u.email.value), Lower("")) {
      IncludesEmpty(Lower(u.email.value));
    }
    if forall i :: 0 <= i < |users| ==> users[i].name.Some? || users[i].email.Some? {
      FilterAllPass(users, (u: User) => MatchesSearch(u, "") && MatchesRole(u, AllRoles));
    }
  }

  /** The counter of one role: `users.filter(u => u.role === role).length`. */
  function RoleCount(users: seq<User>, role: Role): nat
  {
    Count(users, (u: User) => u.role == role)
  }

  /** The Admins, Staff and Students counters add up to the Total counter. */
  lemma {:induction false} RoleCountsPartition(users: seq<User>)
    ensures RoleCount(users, ADMIN) + RoleCount(users, STAFF) + RoleCount(users, STUDENT) == |users|
  {
    if users != [] {
      RoleCountsPartition(users[1..]);
    }
  }

  /** A role counter is the number of users listed under that role with an empty search, for named users. */
  lemma RoleCountMatchesRoleTab(users: seq<User>, role: Role)
    requires forall i :: 0 <= i < |users| ==> users[i].name.Some? || users[i].email.Some?
    ensures |FilteredUsers(users, "", OnlyRole(role))| == RoleCount(users, role)
  {
    forall i | 0 <= i < |users|
      ensures (MatchesSearch(users[i], "") && MatchesRole(users[i], OnlyRole(role))) == (users[i].role == role)
    {
      if users[i].name.Some? {
        IncludesEmpty(Lower(users[i].name.value));
      } else {
        IncludesEmpty(Lower(users[i].email.value));
      }
    }
    FilterAgree(users, (u: User) => MatchesSearch(u, "") && MatchesRole(u, OnlyRole(role)), (u: User) => u.role == role);
  }

  /** The search box, left empty, matches exactly the users that have a name or an email. */
  lemma EmptySearchMatchesContact(u: User)
    ensures MatchesSearch(u, "") <==> u.name.Some? || u.email.Some?
  {
    if u.name.Some? {
      IncludesEmpty(Lower(u.name.value));
    }
    if u.email.Some? {
      IncludesEmpty(Lower(u.email.value));
    }
  }

  /**
   * In general a role counter is the role tab's rows plus the users of that
   * role with neither name nor email: the counter includes them, the tab
   * never lists them.
   */
  lemma {:induction false} RoleCountCountsUnlisted(users: seq<User>, role: Role)
    ensures RoleCount(users, role) ==
      |FilteredUsers(users, "", OnlyRole(role))| + Count(users, (u: User) => u.role == role && u.name.None? && u.email.None?)
  {
    if users != [] {
      EmptySearchMatchesContact(users[0]);
      RoleCountCountsUnlisted(users[1..], role);
    }
  }

  /** The add-user form; it is sent as the request body as it stands. */
  datatype UserForm = UserForm(name: string, email: string, phone: string, password: string, role: Role)

  /** The form when the screen opens and after a successful create. */
  const EmptyForm := UserForm("", "", "", "", STAFF)

  class UserManagementScreen {
    var users: seq<User>
    var loading: bool
    var showModal: bool
    var search: string
    var roleFilter: RoleFilter
    var form: UserForm

    constructor ()
      ensures users == [] && loading && !showModal && search == "" && roleFilter == AllRoles && form == EmptyForm
    {
      users, loading, showModal := [], true, false;
      search, roleFilter, form := "", AllRoles, EmptyForm;
    }

    /** The rows on screen. */
    function Filtered(): seq<User>
      reads this
    {
      FilteredUsers(users, search, roleFilter)
    }

    /** `fetchUsers`: a failed fetch keeps the list and shows an error toast. */
    method FetchUsers(res: Fetch<User>) returns (notice: Option<Notice>)
      modifies this`users, this`loading
      ensures res.Fetched? ==> users == res.data && notice == None
      ensures res.FetchFailed? ==> users == old(users) && notice == Some(Notice("Failed to fetch users", Error))
      ensures !loading
    {
      loading := true;
      notice := None;
      if res.Fetched? {
        users := res.data;
      } else {
        notice := Some(Notice("Failed to fetch users", Error));
      }
      loading := false;
    }

    /**
     * `handleAdd`. `createSucceeds` is the outcome of the create call, when
     * one is made; `call` is the body sent and `notice` the toast shown.
     */
    method HandleAdd(createSucceeds: bool) returns (call: Option<UserForm>, notice: Notice)
      modifies this`form, this`showModal
      ensures call.Some? <==> old(form).name != "" && old(form).email != ""
      ensures call.None? ==>
        notice == Notice("Name and email are required", Warning)
        && form == old(form) && showModal == old(showModal)
      ensures call.Some? ==> call.value == old(form)
      ensures call.Some? && createSucceeds ==>
        notice == Notice("User created successfully!", ToastType.Success) && form == EmptyForm && !showModal
      ensures call.Some? && !createSucceeds ==>
        notice == Notice("Error creating user", Error) && form == old(form) && showModal == old(showModal)
    {
      if form.name == "" || form.email == "" {
        return None, Notice("Name and email are required", Warning);
      }
      call := Some(form);
      if createSucceeds {
        notice := Notice("User created successfully!", ToastType.Success);
        form := UserForm("", "", "", "", STAFF);
        showModal := false;
      } else {
        notice := Notice("Error creating user", Error);
      }
    }

    /** `handleDelete(id, name)`: nothing happens unless the confirmation dialog is accepted. */
    method HandleDelete(id: int, confirmed: bool, deleteSucceeds: bool) returns (call: Option<int>, notice: Option<Notice>)
      ensures !confirmed ==> call == None && notice == None
      ensures confirmed && deleteSucceeds ==> call == Some(id) && notice == Some(Notice("User deleted", ToastType.Success))
      ensures confirmed && !deleteSucceeds ==> call == Some(id) && notice == Some(Notice("Error deleting user", Error))
    {
      if !confirmed {
        return None, None;
      }
      call := Some(id);
      if deleteSucceeds {
        notice := Some(Notice("User deleted", ToastType.Success));
      } else {
        notice := Some(Notice("Error deleting user", Error));
      }
    }
  }
}

=== FILE: user_service.dfy ===
/** The user service: create with a forced status and a creation time, list. */
module UserService {
  import opened Results
  import opened Entities
  import opened Store

  /** `createUser`; `now` is the clock reading `LocalDateTime.now()` would return. */
  method CreateUser(db: Database, user: User, now: int) returns (saved: User)
    requires db.Valid()
    modifies db
    ensures db.Valid()
    ensures saved.status == Some(ACTIVE) && saved.createdAt == Some(now)
    ensures saved.name == user.name && saved.email == user.email
    ensures saved.phone == user.phone && saved.role == user.role
    ensures saved.id !in old(db.users)
    ensures db.users == old(db.users)[saved.id := saved]
    ensures db.resources == old(db.resources) && db.bookings == old(db.bookings)
    ensures db.nextUserId == old(db.nextUserId) + 1
    ensures db.nextResourceId == old(db.nextResourceId) && db.nextBookingId == old(db.nextBookingId)
  {
    var u := user.(createdAt := Some(now));
    u := u.(status := Some(ACTIVE));
    saved := db.InsertUser(u);
  }

  /** `getAll`. */
  method GetAll(db: Database) returns (r: map<int, User>)
    ensures r == db.users
  {
    r := db.users;
  }
}
